=== FILE: README.md ===
# Winter Star narrative: a Dafny model

This project models the orchestration core of the DWL prototype, a Lens Studio experience. It covers three scripts.

- **`WinterStarController`**: the Winter Star narrative.
  - A phase machine runs Descending → WindBlowing → Exploding → Collecting → Unifying → Complete.
  - A fragment-collection gate has a failsafe timer.
  - A single-channel on-screen message sequencer runs each message through fade-in, hold and fade-out. A fade-out that ends can chain a follow-up message.
- **`StartStarBounce`**: the start star's up/down bounce loop, switched by `isAnimating`.
- **`ChristmasTreeAnim`**: the tree's staggered reveal. The direct children are collected, all are disabled, and child `i` is re-enabled `startDelay + i * delayBetween` seconds later.

## How the model is built

**The host runtime as an event queue.** The model has one abstract scheduler, `Scheduling.Queue` (module `Scheduling`). It holds pending events by handle, each due at a time on an abstract clock.
- `createEvent("DelayedCallbackEvent")` with `reset(d)` becomes `Schedule`.
- `removeEvent` becomes `Cancel`.
- A tween's completion becomes an event due after the tween's duration.

Each component class owns its queue. Its `Fire(h)` method is the runtime firing a pending event once it is due. The model lets the environment choose which due event fires next, so every ordering of callbacks is covered. `getTime()` is the queue's clock. It moves forward only through the controller's `Update(t)` (a frame) and the other two classes' `AdvanceClock(t)`.

**`WinterStar.WinterStarController`.** This class has the source's fields:
- `state`, `fragmentsCollected`, the fragments' `collected` flags and Interactable flags, and `failsafeTimer`;
- the message channel. The seven fields `instructionText.text`, text alpha, `uiPhase`, `uiPhaseStartTime`, `uiPhaseDuration`, `uiCurrentTag` and `uiHoldDelayEvt` are held together in one record-valued field `ui` (`WinterStarSpec.MessageChannel`). Each method reassigns the record's fields exactly as the source reassigns its fields.

Two ghost fields state what the source only implies:
- `phaseCount`: how many phases have been entered. `Entered(phaseCount)` lists them in order.
- `driver`: the handle of the one pending event that will move the narrative on.

The invariant `Valid()` says the following.
- `uiHoldDelayEvt`, `failsafeTimer` and `driver` each name the only pending event of their kind, or none. A handle may be stale after its event fired, as in the source.
- The phases entered are a prefix of the fixed order, ending with the current one.
- Each phase has exactly its own driving event pending. In Collecting that is the failsafe or the unification, never both. So unification is scheduled at most once, whichever of the last selection and the failsafe comes first.
- The fade is well formed: alpha is in [0, 1], and a phase has a duration of at least 0.0001.

Every callback keeps `Valid()`. `Fire` also proves three things:
- a change of phase enters the next phase of the order, caused by the previous phase's own trigger;
- no phase is entered twice;
- no collected fragment is ever uncollected.

**Pure rules.** Module `WinterStarSpec` holds the rules the controller uses:
- the fragments' collected count and the failsafe sweep;
- the follow-up table;
- the fade clamp and fade progress;
- the "N fragment(s) remaining ..." text;
- the randomized reveal plan;
- the scale cache.

The lemmas about these rules are proved there. Module `WinterStarInvariant` states the handle discipline on plain values.

**Two behaviours of the code worth noting:**
- the hold timer is scheduled when a message is shown, `uiFadeInSeconds + hold` ahead. It is not scheduled when the fade-in completes;
- the failsafe marks fragments collected but leaves `fragmentsCollected` as it is.

**A missing wind object or camera.** As written, the code dereferences both without a null check. With either one unassigned, the callback throws and the narrative stalls (see Findings). The class models the corrected behaviour: `TriggerWind` and `ExplodeFragments` schedule the next phase in every case. The as-written behaviour lives only in the pure functions `WindStepAsWritten` and `ExplodeStepAsWritten`, with their lemmas.

**Showing a message.** `WinterStarSpec.Shown` gives the message channel and the queue after `showUI(m)`. Every callback that shows a message states its new channel and queue through it, so each one says when the message's fade-out is due.

The bounce's `StartBounce` after a `StopBounce` does not cancel a tween still in flight. That tween still completes and runs its next step, as the source does. Two ghost fields follow the chain of steps the latest `StartBounce` began: `current`, the handle of its step in flight, and `steps`, how many of its steps have completed.

## Model

| member | source | states |
|---|---|---|
| WinterStarSpec.RankIsPosition | DWL-Prototype/Assets/Scripts/WinterStarController.ts:101-108 | each of the six phases has exactly one position in the narrative order, and each position holds the phase of that rank |
| WinterStarSpec.EnterNext | DWL-Prototype/Assets/Scripts/WinterStarController.ts:101-110 | one more transition appends the next phase of the order to those already entered |
| WinterStarSpec.EnteredHasNoRepeats | DWL-Prototype/Assets/Scripts/WinterStarController.ts:101-110 | entering phases along the order never enters one twice |
| WinterStarSpec.Trigger | DWL-Prototype/Assets/Scripts/WinterStarController.ts:239-462 | every phase but Complete is ended by exactly one driving event, and that event is never the failsafe |
| WinterStarSpec.Collect | DWL-Prototype/Assets/Scripts/WinterStarController.ts:342-344 | a collected fragment is marked; its Interactable, if it has one, is disabled, and one without an Interactable stays without |
| WinterStarSpec.SetUpFragments | DWL-Prototype/Assets/Scripts/WinterStarController.ts:217-229 | set-up gives one uncollected fragment per entry, with its Interactable or none |
| WinterStarSpec.CountNone | DWL-Prototype/Assets/Scripts/WinterStarController.ts:110-112 | with nothing collected the count is 0, matching the initial `fragmentsCollected` |
| WinterStarSpec.CountFullIffAll | DWL-Prototype/Assets/Scripts/WinterStarController.ts:347 | the count reaches the number of fragments exactly when every fragment is collected (both directions) |
| WinterStarSpec.CountAfterCollect | DWL-Prototype/Assets/Scripts/WinterStarController.ts:339-343 | collecting one uncollected fragment adds exactly one to the count |
| WinterStarSpec.ForceCollectOne | DWL-Prototype/Assets/Scripts/WinterStarController.ts:373-377 | the failsafe's step leaves a collected fragment exactly as it was, and collects any other as a selection does, disabling its Interactable |
| WinterStarSpec.ForceCollect | DWL-Prototype/Assets/Scripts/WinterStarController.ts:373-378 | the sweep treats every fragment with that step and keeps the list's length |
| WinterStarSpec.ForceCollectCompletes | DWL-Prototype/Assets/Scripts/WinterStarController.ts:371-378 | after the sweep every fragment is collected, those collected before are unchanged, and the count equals the number of fragments |
| WinterStarSpec.FollowUp | DWL-Prototype/Assets/Scripts/WinterStarController.ts:542-549 | only `collect_intro` (followed by the pinch hint) and `final` (followed by the ornaments hint) have a follow-up, both directions |
| WinterStarSpec.FollowUpsDoNotChain | DWL-Prototype/Assets/Scripts/WinterStarController.ts:542-549 | a follow-up message has no follow-up of its own, so a chain stops after one message |
| WinterStarSpec.Shown | DWL-Prototype/Assets/Scripts/WinterStarController.ts:472-502 | without a text component nothing changes; otherwise the previous hold-timer is removed and nothing else pending is touched, the text is shown at alpha 0 under its tag, fading in from now over `max(0.0001, uiFadeInSeconds)`, and a fresh hold-timer, named by the channel, is due after `uiFadeInSeconds` plus the message's hold or `uiHoldSeconds` |
| WinterStarSpec.ClampDuration | DWL-Prototype/Assets/Scripts/WinterStarController.ts:504-508 | a phase duration is never below 0.0001, never below the requested one, and is one of the two |
| WinterStarSpec.FadeProgress | DWL-Prototype/Assets/Scripts/WinterStarController.ts:512-513 | progress is at most 1, non-negative once the phase has started, equal to 1 exactly when the duration has elapsed, and otherwise the elapsed fraction |
| WinterStarSpec.NatToString | DWL-Prototype/Assets/Scripts/WinterStarController.ts:354 | the template literal prints a count as one or more decimal digits, with no leading zero for a positive count |
| WinterStarSpec.NatToStringRoundTrip | DWL-Prototype/Assets/Scripts/WinterStarController.ts:354 | the printed digits read back as the count |
| WinterStarSpec.TailIsPluralIffMany | DWL-Prototype/Assets/Scripts/WinterStarController.ts:354 | the text after the count uses the plural noun exactly when more than one fragment remains, and the singular otherwise |
| WinterStarSpec.RemainingTextReadsBack | DWL-Prototype/Assets/Scripts/WinterStarController.ts:353-354 | the remaining message starts with the remaining count in decimal and uses the plural noun exactly when more than one remains |
| WinterStarSpec.RevealDelayBounds | DWL-Prototype/Assets/Scripts/WinterStarController.ts:425-426 | with a random draw in [0, 1) a reveal delay lies between start + min and start + max |
| WinterStarSpec.Hidden | DWL-Prototype/Assets/Scripts/WinterStarController.ts:156-158 | set-up disables every assigned ornament and landscape element and leaves unassigned entries unassigned |
| WinterStarSpec.AssignedCount | DWL-Prototype/Assets/Scripts/WinterStarController.ts:423-424 | the number of non-null entries of a reveal list is at most its length |
| WinterStarSpec.RevealPlan | DWL-Prototype/Assets/Scripts/WinterStarController.ts:421-437 | as many reveals as assigned entries, each for an assigned entry of its own group |
| WinterStarSpec.RevealPlanInOrder | DWL-Prototype/Assets/Scripts/WinterStarController.ts:421-437 | the plan's reveals name strictly increasing entries, so each assigned entry gets exactly one, in list order, and the i-th waits for the delay of the i-th draw |
| WinterStarSpec.RevealPlanWithinRange | DWL-Prototype/Assets/Scripts/WinterStarController.ts:439-455 | every planned reveal is due within its group's range when the draws are in [0, 1) |
| WinterStarSpec.WindStep | DWL-Prototype/Assets/Scripts/WinterStarController.ts:279-294 | entering WindBlowing schedules the wind's hiding only when the wind object exists, and the explosion 1 s later in every case |
| WinterStarSpec.WindStepAsWrittenStalls | DWL-Prototype/Assets/Scripts/WinterStarController.ts:274-294 | as written, a missing wind object leaves no explosion scheduled |
| WinterStarSpec.WindStepAlwaysExplodes | DWL-Prototype/Assets/Scripts/WinterStarController.ts:288-294 | the step schedules exactly one driving event, the explosion, last |
| WinterStarSpec.ExplodeStepAsWrittenStalls | DWL-Prototype/Assets/Scripts/WinterStarController.ts:312-327 | as written, a missing camera leaves Collecting unscheduled, while the corrected step schedules it |
| WinterStarSpec.CacheScales | DWL-Prototype/Assets/Scripts/WinterStarController.ts:169-173 | every assigned decoration ends with a cached scale; a scale cached before is kept, otherwise the current scale is cached |
| WinterStarSpec.CacheScalesIdempotent | DWL-Prototype/Assets/Scripts/WinterStarController.ts:169-173 | caching twice (at init and after the descent) is caching once |
| WinterStarInvariant.AgreeCancel | DWL-Prototype/Assets/Scripts/WinterStarController.ts:348 | removing an event keeps every handle field in agreement with the pending events, whether a handle naming it is cleared or left stale |
| WinterStarInvariant.AgreeCancelHold | DWL-Prototype/Assets/Scripts/WinterStarController.ts:536-540 | removing the hold-timer leaves no hold-timer pending and leaves the driving event pending as it was |
| WinterStarInvariant.AgreeScheduleHold | DWL-Prototype/Assets/Scripts/WinterStarController.ts:493-501 | with no hold-timer pending, the new one becomes the only one and `uiHoldDelayEvt` names it |
| WinterStarInvariant.AgreeScheduleFailsafe | DWL-Prototype/Assets/Scripts/WinterStarController.ts:365-369 | with nothing driving, the new failsafe becomes the only failsafe and the only driving event |
| WinterStarInvariant.WindStepSchedules | DWL-Prototype/Assets/Scripts/WinterStarController.ts:279-294 | the wind step's two events are scheduled in the source's order |
| WinterStarInvariant.ExplodeStepSchedules | DWL-Prototype/Assets/Scripts/WinterStarController.ts:325-327 | entering Exploding schedules Collecting and nothing else |
| WinterStar.CollectRemaining | DWL-Prototype/Assets/Scripts/WinterStarController.ts:373-378 | the failsafe's loop over the fragments computes the sweep |
| WinterStar.ScheduleReveals | DWL-Prototype/Assets/Scripts/WinterStarController.ts:421-437 | the reveal loop schedules exactly the reveal plan and makes one random draw per assigned entry |
| WinterStar.WinterStarController.constructor | DWL-Prototype/Assets/Scripts/WinterStarController.ts:137-167 | init: fragments uncollected, scales cached, wind and reveal lists hidden, nothing scheduled, invariant established |
| WinterStar.WinterStarController.StartStarSequence | DWL-Prototype/Assets/Scripts/WinterStarController.ts:239-262 | enters Descending, the first phase, and schedules the descent's completion as the driving event |
| WinterStar.WinterStarController.Fire | DWL-Prototype/Assets/Scripts/WinterStarController.ts:239-462 | a due event fires; a phase change enters the next phase of the order and is caused by the old phase's own trigger; collected fragments stay collected; an event that drives nothing is removed and leaves the phase, the fragments, the counters, the handles and the scale cache alone, and only a hold-timer changes the message channel; a fired hold-timer starts the fade-out; a fired driving event other than the failsafe changes the phase; the invariant holds |
| WinterStar.WinterStarController.AdvancePhase | DWL-Prototype/Assets/Scripts/WinterStarController.ts:257-412 | a fired driving event runs its phase's callback, entering exactly the next phase; every driving event but the failsafe does change the phase, while the failsafe stays in Collecting |
| WinterStar.WinterStarController.AdvanceOpening | DWL-Prototype/Assets/Scripts/WinterStarController.ts:257-292 | the descent's completion enters WindBlowing and the delay after the wind enters Exploding, each the next phase of the order; the fragments are untouched |
| WinterStar.WinterStarController.EndCollecting | DWL-Prototype/Assets/Scripts/WinterStarController.ts:371-413 | in Collecting, the failsafe sweeps every fragment to collected, schedules unification `collectDuration + 0.5` ahead and stays in Collecting, while unification enters Unifying; collected fragments stay collected |
| WinterStar.WinterStarController.ApplyEffect | DWL-Prototype/Assets/Scripts/WinterStarController.ts:282-284 | the wind's auto-hide hides it only when it exists; a hold-timer (lines 494-500) starts the fade-out now, for `uiFadeOutSeconds` clamped; a reveal (lines 428-429) enables its own assigned entry only; nothing else changes |
| WinterStar.WinterStarController.StoreFragmentPositions | DWL-Prototype/Assets/Scripts/WinterStarController.ts:264-271 | after the descent the decorations' scales are cached again |
| WinterStar.WinterStarController.CacheAuxScales | DWL-Prototype/Assets/Scripts/WinterStarController.ts:169-173 | caches each assigned decoration's scale unless one is cached |
| WinterStar.WinterStarController.OnDescentComplete | DWL-Prototype/Assets/Scripts/WinterStarController.ts:257-260 | the descent's completion caches the scales and enters WindBlowing, showing the wind when it exists, scheduling its hiding, and making the explosion, due 1 s later, the driving event |
| WinterStar.WinterStarController.OnExplosionDelay | DWL-Prototype/Assets/Scripts/WinterStarController.ts:288-292 | the 1 s delay shows the shattered message, with its hold-timer, and enters Exploding, with Collecting due after `explosionDuration` as the driving event |
| WinterStar.WinterStarController.TriggerWind | DWL-Prototype/Assets/Scripts/WinterStarController.ts:274-295 | enters WindBlowing, shows the wind when it exists, and makes the explosion, due 1 s later, the driving event |
| WinterStar.WinterStarController.ExplodeFragments | DWL-Prototype/Assets/Scripts/WinterStarController.ts:297-328 | enters Exploding and makes Collecting, due after `explosionDuration`, the driving event |
| WinterStar.WinterStarController.StartCollecting | DWL-Prototype/Assets/Scripts/WinterStarController.ts:330-334 | enters Collecting, shows the introduction with its hold-timer, and then arms the failsafe as the driving event, due after `failsafeTimeout` |
| WinterStar.WinterStarController.StartFailsafeTimer | DWL-Prototype/Assets/Scripts/WinterStarController.ts:365-369 | schedules the failsafe after `failsafeTimeout` and records its handle |
| WinterStar.WinterStarController.DisarmFailsafe | DWL-Prototype/Assets/Scripts/WinterStarController.ts:348 | removes the pending failsafe and clears its handle |
| WinterStar.WinterStarController.OnFragmentSelected | DWL-Prototype/Assets/Scripts/WinterStarController.ts:336-356 | ignored outside Collecting or for a collected fragment; otherwise collects that fragment only and counts it once; the last one removes the failsafe, leaves the message alone and schedules unification after `collectDuration + 0.05`; any other shows the remaining count with a 1.2 s hold |
| WinterStar.WinterStarController.CollectFragment | DWL-Prototype/Assets/Scripts/WinterStarController.ts:342-344 | marks the one fragment collected and increments the count by one |
| WinterStar.WinterStarController.OnFailsafeTriggered | DWL-Prototype/Assets/Scripts/WinterStarController.ts:371-382 | ignored outside Collecting; otherwise collects every uncollected fragment, leaves the count alone, and schedules unification after `collectDuration + 0.5` |
| WinterStar.WinterStarController.StartUnification | DWL-Prototype/Assets/Scripts/WinterStarController.ts:384-413 | enters Unifying, announces it with its hold-timer, schedules the ornaments' then the landscape's reveal plans, and makes Complete, due after `unificationRiseDuration + 1.0`, the driving event |
| WinterStar.WinterStarController.ScheduleUnification | DWL-Prototype/Assets/Scripts/WinterStarController.ts:405-412 | schedules the ornaments' reveal plan, then the landscape's, then Complete after `unificationRiseDuration + 1.0` as the driving event |
| WinterStar.WinterStarController.AnimateReveals | DWL-Prototype/Assets/Scripts/WinterStarController.ts:421-455 | schedules exactly a list's reveal plan and nothing else; the driving event is untouched |
| WinterStar.WinterStarController.AnimateAllReveals | DWL-Prototype/Assets/Scripts/WinterStarController.ts:405-407 | schedules the ornaments' reveal plan, then the landscape's, with the draws numbered on from the first list's; the driving event is untouched |
| WinterStar.WinterStarController.RevealSlot | DWL-Prototype/Assets/Scripts/WinterStarController.ts:428-429 | a reveal enables its own entry only, and only an assigned one |
| WinterStar.WinterStarController.CompleteExperience | DWL-Prototype/Assets/Scripts/WinterStarController.ts:457-462 | enters Complete, after which nothing drives the narrative, and shows the final message with its 2 s hold |
| WinterStar.WinterStarController.ShowUI | DWL-Prototype/Assets/Scripts/WinterStarController.ts:472-502 | the new channel and queue are those of `Shown`; the driving event stays pending as it was |
| WinterStar.WinterStarController.StartUIPhase | DWL-Prototype/Assets/Scripts/WinterStarController.ts:504-508 | sets the phase, starts it now, and clamps its duration; a well-formed fade stays well formed |
| WinterStar.WinterStarController.CancelUIAnimation | DWL-Prototype/Assets/Scripts/WinterStarController.ts:536-540 | removes the pending hold-timer, if any, and clears the phase and the tag; other events are untouched |
| WinterStar.WinterStarController.Update | DWL-Prototype/Assets/Scripts/WinterStarController.ts:465-470 | a frame moves the clock on and steps the fade, keeping the invariant |
| WinterStar.WinterStarController.OnUIFadeUpdate | DWL-Prototype/Assets/Scripts/WinterStarController.ts:510-524 | fading in, alpha is the progress and the hold starts at 1; fading out, alpha is one minus the progress and at 1 the session ends, showing the follow-up, if any, with its hold-timer; holding, or without a session or text, nothing changes |
| WinterStar.WinterStarController.OnUIFadeComplete | DWL-Prototype/Assets/Scripts/WinterStarController.ts:526-534 | clears the phase and the tag; then a `collect_intro` or `final` session shows its follow-up with its hold-timer, and any other changes nothing more |
| WinterStar.WinterStarController.OnUIMessageComplete | DWL-Prototype/Assets/Scripts/WinterStarController.ts:542-549 | shows the follow-up of `collect_intro` or `final`, with its hold-timer; any other tag changes nothing |
| StarBounce.Target | DWL-Prototype/Assets/Scripts/StartStarAnim.ts:37-41 | the up target is the origin raised by `bounceDistance` along y, with x and z unchanged; the down target is the origin itself |
| StarBounce.StepAfterAlternates | DWL-Prototype/Assets/Scripts/StartStarAnim.ts:43-57 | steps alternate: after an even number of completions a chain is on the step it began with, otherwise on the other |
| StarBounce.BackHomeEverySecondStep | DWL-Prototype/Assets/Scripts/StartStarAnim.ts:36-56 | a chain begun with the up step targets the raised position on even steps and the origin on odd ones |
| StarBounce.StartStarBounce.constructor | DWL-Prototype/Assets/Scripts/StartStarAnim.ts:13-17 | the start event is registered only under `autoStart` |
| StarBounce.StartStarBounce.InFlightAlternates | DWL-Prototype/Assets/Scripts/StartStarAnim.ts:33-58 | while the bounce is on, the latest chain heads for the raised origin after an even number of completed steps and for the origin after an odd number |
| StarBounce.StartStarBounce.StartBounce | DWL-Prototype/Assets/Scripts/StartStarAnim.ts:19-27 | a no-op while animating; otherwise records the origin and sets the flag, then starts a new chain with the up step toward the raised origin |
| StarBounce.StartStarBounce.StopBounce | DWL-Prototype/Assets/Scripts/StartStarAnim.ts:29-31 | clears the flag |
| StarBounce.StartStarBounce.BounceUp | DWL-Prototype/Assets/Scripts/StartStarAnim.ts:33-47 | when animating with a recorded origin, schedules the tween to the raised origin; otherwise schedules nothing |
| StarBounce.StartStarBounce.BounceDown | DWL-Prototype/Assets/Scripts/StartStarAnim.ts:49-58 | when animating with a recorded origin, schedules the tween back to the origin; otherwise schedules nothing |
| StarBounce.StartStarBounce.AdvanceClock | DWL-Prototype/Assets/Scripts/StartStarAnim.ts:43-57 | the clock moves on and nothing else changes |
| StarBounce.StartStarBounce.Fire | DWL-Prototype/Assets/Scripts/StartStarAnim.ts:43-57 | the start event starts the bounce unless it is on; a completing tween puts the star at its target and is removed; while the bounce is on, the other step is scheduled toward its target, and the latest chain's own completion moves its step count on; once stopped, nothing is scheduled, so the loop ends with the step in flight |
| TreeAnim.NonNull | DWL-Prototype/Assets/Scripts/ChristmasTreeAnim.ts:51-59 | the kept children are among the slots, every non-null slot is kept, and there are no more of them than slots |
| TreeAnim.NonNullAppend | DWL-Prototype/Assets/Scripts/ChristmasTreeAnim.ts:51-59 | filtering keeps relative order: filtering two runs of slots is filtering each, one after the other |
| TreeAnim.NonNullOfFilled | DWL-Prototype/Assets/Scripts/ChristmasTreeAnim.ts:51-59 | with no null slot, the children come back exactly in index order |
| TreeAnim.GetDirectChildren | DWL-Prototype/Assets/Scripts/ChristmasTreeAnim.ts:51-59 | the loop returns the parent's non-null children in index order |
| TreeAnim.EnablePlan | DWL-Prototype/Assets/Scripts/ChristmasTreeAnim.ts:29-48 | one enable request per child, the child at position `i` waiting `startDelay + i * delayBetween` |
| TreeAnim.EnableTimesInOrder | DWL-Prototype/Assets/Scripts/ChristmasTreeAnim.ts:47 | with `delayBetween >= 0`, enable times do not decrease along the list |
| TreeAnim.EnableTimesEvenlySpaced | DWL-Prototype/Assets/Scripts/ChristmasTreeAnim.ts:47 | the first child waits `startDelay`, each next one `delayBetween` more |
| TreeAnim.EnableScheduled | DWL-Prototype/Assets/Scripts/ChristmasTreeAnim.ts:29-48 | after scheduling, the child at position `i` has its own callback under the `i`-th fresh handle, due `startDelay + i * delayBetween` from now |
| TreeAnim.EnableDueAt | DWL-Prototype/Assets/Scripts/ChristmasTreeAnim.ts:29-48 | once the clock reaches `t`, the child at position `i` may be enabled exactly when `t` is at least the scheduling time plus `startDelay + i * delayBetween` |
| TreeAnim.ChristmasTreeAnim.constructor | DWL-Prototype/Assets/Scripts/ChristmasTreeAnim.ts:5-14 | the inputs are kept and nothing is scheduled |
| TreeAnim.ChristmasTreeAnim.EnableAndRotateChildren | DWL-Prototype/Assets/Scripts/ChristmasTreeAnim.ts:16-49 | with no parent nothing changes; otherwise every non-null child is disabled and exactly the enable plan is scheduled (none for no children); only the children's enabled flags may change |
| TreeAnim.ChristmasTreeAnim.DisableAll | DWL-Prototype/Assets/Scripts/ChristmasTreeAnim.ts:26 | every child ends disabled; only the enabled flags may change |
| TreeAnim.ChristmasTreeAnim.ScheduleEnables | DWL-Prototype/Assets/Scripts/ChristmasTreeAnim.ts:29-48 | the loop schedules exactly the enable plan, in list order |
| TreeAnim.ChristmasTreeAnim.AdvanceClock | DWL-Prototype/Assets/Scripts/ChristmasTreeAnim.ts:29-48 | the clock moves on and nothing else changes, so the scheduled enables can fall due |
| TreeAnim.ChristmasTreeAnim.Fire | DWL-Prototype/Assets/Scripts/ChristmasTreeAnim.ts:33-34 | a due callback enables its child, touches nothing else of it, and is removed |

## Left out

- Rendering and host plumbing are not modelled. This covers:
  - tween interpolation and easing, and the millisecond conversion of durations;
  - material alpha and colour writes; audio;
  - the pinch hand's and `uiComp`'s visibility;
  - the AnimationPlayer pause and resume;
  - the spike and snowflake scale tweens (only the cached scales are kept);
  - the star's descent and rise positions, and the fragments' stored positions and return tweens;
  - the explosion's target vectors;
  - the particle and tree objects enabled at Unifying and Complete.
  Each of these is floating-point vector work or a foreign library call.
- The start menu (`setupStartButton`, `onStartPressed`) and the subscription of fragment selections in `setupInteractions` are left out. The model starts at `StartStarSequence` and takes a selection as a call to `OnFragmentSelected`.
- `init` aborting when `winterStarHolder` is unassigned is left out. The model assumes the star exists.
- `setupFragments` (WinterStarController.ts:217-229) reads a component from each of `fragment1` to `fragment3` without a null check, so `init` throws if one is unassigned. The model assumes every fragment object exists; only a missing Interactable is modelled.
- Times, durations and alpha are exact `real` numbers, not IEEE doubles. The `Math.min`, `Math.max` and division of the fade step (WinterStarController.ts:507-513) are exact here, so rounding is not modelled.
- `print` diagnostics are left out.
- `Math.random` becomes the parameter `rand`: the k-th draw of a run is `rand(k)`.
- The number of fragments is a constructor parameter. The source fixes three.
- The tree's rotation tween and its `quat.angleAxis` target are not modelled. So are the `OnStartEvent` bindings of the tree and the controller.
- Only the bounce's end positions are modelled. Intermediate tween positions and outside moves of the star are not.
- WinterStar.WinterStarController.AdvancePhase: states the phase order and the invariant, not the events scheduled. Those are stated by the transition methods it calls.
- WinterStar.WinterStarController.Fire: for an event that drives nothing, states the queue, the phase, the fragments, the counters, the failsafe and driver handles, the scale cache and the message channel, with a hold-timer's fade-out. It does not state the wind flag, or which reveal list entry a reveal enables. Those are stated by `ApplyEffect`.
- WinterStar.WinterStarController.Update: states only the invariant and the new clock. The fade step is stated by `OnUIFadeUpdate`.

## Findings

| source | as written | input that shows it | evidently intended | confidence | as-written member | corrected member |
|---|---|---|---|---|---|---|
| DWL-Prototype/Assets/Scripts/WinterStarController.ts:277 | `triggerWind` enables `windAnimation` before checking that it exists | no wind object assigned: the callback throws before the explosion delay is scheduled, so the narrative stays in WindBlowing | the guarded block alone: the wind is optional and the explosion is scheduled in every case | not executed | WinterStarSpec.WindStepAsWrittenStalls | WinterStarSpec.WindStep |
| DWL-Prototype/Assets/Scripts/WinterStarController.ts:312 | `explodeFragments` reads the camera's position without a null check, before scheduling Collecting | no `userCamera` assigned: the callback throws before `toCollect` is scheduled, so the narrative stays in Exploding | the pull toward the user skipped without a camera, with Collecting still scheduled | not executed | WinterStarSpec.ExplodeStepAsWrittenStalls | WinterStar.WinterStarController.ExplodeFragments |

=== FILE: christmas_tree_anim.dfy ===
/**
 * The tree's staggered reveal (`ChristmasTreeAnim`): on start, the direct children of
 * `parent` are collected in index order, all of them are disabled, and the child at
 * position `i` of that list is re-enabled `startDelay + i * delayBetween` seconds later.
 * The rotation tween each child starts when it is enabled is not modelled.
 */
module TreeAnim {
  import opened Scheduling

  /** A scene object: its enabled flag and its child slots, which may read back null. */
  class SceneNode {
    var enabled: bool
    var children: seq<SceneNode?>

    constructor (enabled: bool, children: seq<SceneNode?>)
      ensures this.enabled == enabled && this.children == children
    {
      this.enabled := enabled;
      this.children := children;
    }
  }

  /** The non-null entries of `slots`, in the order of their slots. */
  function NonNull(slots: seq<SceneNode?>): (r: seq<SceneNode>)
    ensures |r| <= |slots|
    ensures forall i | 0 <= i < |r| :: r[i] in slots
    ensures forall i | 0 <= i < |slots| && slots[i] != null :: slots[i] in r
    decreases |slots|
  {
    if slots == [] then []
    else
      var last := slots[|slots| - 1];
      assert slots == slots[..|slots| - 1] + [last];
      NonNull(slots[..|slots| - 1]) + (if last == null then [] else [last])
  }

  /** Filtering keeps relative order: the non-null entries of two runs of slots, one after the other. */
  lemma {:induction false} NonNullAppend(a: seq<SceneNode?>, b: seq<SceneNode?>)
    ensures NonNull(a + b) == NonNull(a) + NonNull(b)
    decreases |b|
  {
    if b == [] {
      assert a + b == a;
    } else {
      var init := b[..|b| - 1];
      assert (a + b)[..|a + b| - 1] == a + init;
      NonNullAppend(a, init);
    }
  }

  /** Slots that are all filled come back unchanged, in the same order. */
  lemma {:induction false} NonNullOfFilled(slots: seq<SceneNode?>)
    requires forall i | 0 <= i < |slots| :: slots[i] != null
    ensures NonNull(slots) == slots
    decreases |slots|
  {
    if slots != [] {
      NonNullOfFilled(slots[..|slots| - 1]);
    }
  }

  /** How long the child at position `i` of the list waits before it is enabled. */
  function EnableDelay(startDelay: real, delayBetween: real, i: nat): real {
    startDelay + (i as real) * delayBetween
  }

  /** The enable request for each child, in list order. */
  function EnablePlan(kids: seq<SceneNode>, startDelay: real, delayBetween: real): (plan: seq<Delayed<SceneNode>>)
    ensures |plan| == |kids|
    ensures forall i | 0 <= i < |kids| :: plan[i] == Delayed(EnableDelay(startDelay, delayBetween, i), kids[i])
  {
    seq(|kids|, i requires 0 <= i < |kids| => Delayed(EnableDelay(startDelay, delayBetween, i), kids[i]))
  }

  /** With a non-negative gap, a child further down the list is never enabled before one above it. */
  lemma EnableTimesInOrder(startDelay: real, delayBetween: real, i: nat, j: nat)
    requires delayBetween >= 0.0 && i <= j
    ensures EnableDelay(startDelay, delayBetween, i) <= EnableDelay(startDelay, delayBetween, j)
  {
    assert EnableDelay(startDelay, delayBetween, j) - EnableDelay(startDelay, delayBetween, i)
        == ((j - i) as real) * delayBetween;
  }

  /** Each child is enabled `delayBetween` seconds after the one before it, the first at `startDelay`. */
  lemma EnableTimesEvenlySpaced(startDelay: real, delayBetween: real, i: nat)
    ensures EnableDelay(startDelay, delayBetween, 0) == startDelay
    ensures EnableDelay(startDelay, delayBetween, i + 1) == EnableDelay(startDelay, delayBetween, i) + delayBetween
  {
  }

  /**
   * Scheduling the plan gives each child its own callback: the child at position `i`
   * gets the `i`-th fresh handle and is due `startDelay + i * delayBetween` from now.
   * (`ScheduleAll` itself promises that nothing else is added and nothing pending is touched.)
   */
  lemma EnableScheduled(q: Queue<SceneNode>, kids: seq<SceneNode>, startDelay: real, delayBetween: real, i: nat)
    requires q.Valid() && i < |kids|
    ensures q.next + i in ScheduleAll(q, EnablePlan(kids, startDelay, delayBetween)).pending
    ensures ScheduleAll(q, EnablePlan(kids, startDelay, delayBetween)).pending[q.next + i]
            == Timed(q.now + EnableDelay(startDelay, delayBetween, i), kids[i])
  {
    ScheduleAllAt(q, EnablePlan(kids, startDelay, delayBetween), i);
  }

  /**
   * Once the clock has moved on to `t`, the child at position `i` may be enabled exactly
   * when `t` has reached the moment it was scheduled plus its wait.
   */
  lemma EnableDueAt(q: Queue<SceneNode>, kids: seq<SceneNode>, startDelay: real, delayBetween: real, i: nat, t: real)
    requires q.Valid() && i < |kids| && q.now <= t
    ensures var r := ScheduleAll(q, EnablePlan(kids, startDelay, delayBetween));
      Due(AdvanceTo(r, t), q.next + i) <==> q.now + EnableDelay(startDelay, delayBetween, i) <= t
  {
    EnableScheduled(q, kids, startDelay, delayBetween, i);
  }

  /** `getDirectChildren`: the parent's child slots read in index order, keeping the non-null ones. */
  method GetDirectChildren(parent: SceneNode) returns (out: seq<SceneNode>)
    ensures out == NonNull(parent.children)
  {
    out := [];
    var count := |parent.children|;
    for i := 0 to count
      invariant out == NonNull(parent.children[..i])
    {
      var child := parent.children[i];
      assert parent.children[..i + 1][..i] == parent.children[..i];
      if child != null {
        out := out + [child];
      }
    }
    assert parent.children[..count] == parent.children;
  }

  class ChristmasTreeAnim {
    const parent: SceneNode?
    const delayBetween: real
    const startDelay: real
    const rotationDuration: real
    const rotationDegrees: real
    /** The component's pending delayed callbacks, each enabling one child. */
    var queue: Queue<SceneNode>

    constructor (parent: SceneNode?, delayBetween: real, startDelay: real,
                 rotationDuration: real, rotationDegrees: real, now: real)
      ensures this.parent == parent && this.delayBetween == delayBetween && this.startDelay == startDelay
      ensures this.rotationDuration == rotationDuration && this.rotationDegrees == rotationDegrees
      ensures queue == EmptyQueue(now)
    {
      this.parent := parent;
      this.delayBetween := delayBetween;
      this.startDelay := startDelay;
      this.rotationDuration := rotationDuration;
      this.rotationDegrees := rotationDegrees;
      queue := EmptyQueue(now);
    }

    /** The children the start-up pass touches. */
    function Kids(): set<SceneNode>
      reads parent
    {
      if parent == null then {} else set c: SceneNode | c in parent.children
    }

    /**
     * `enableAndRotateChildren`: with no parent, or a parent without children, nothing
     * happens.  Otherwise every child is disabled, and then one enable callback per child
     * is scheduled, the child at position `i` of the list being due
     * `startDelay + i * delayBetween` from now (see `EnableScheduled` and `EnableDueAt`).
     */
    method EnableAndRotateChildren()
      requires queue.Valid()
      modifies `queue, Kids()`enabled
      ensures parent == null ==> unchanged(this) && unchanged(Kids())
      ensures parent != null ==>
        var kids := NonNull(old(parent.children));
        && queue == ScheduleAll(old(queue), EnablePlan(kids, startDelay, delayBetween))
        && (forall c | c in kids :: !c.enabled)
    {
      if parent == null {
        return;
      }
      var kids := GetDirectChildren(parent);
      if |kids| == 0 {
        return;
      }
      DisableAll(kids);
      ScheduleEnables(kids);
    }

    /** The first pass: every child in `kids` is disabled. */
    method DisableAll(kids: seq<SceneNode>)
      modifies kids`enabled
      ensures forall c | c in kids :: !c.enabled
    {
      for i := 0 to |kids|
        invariant forall j | 0 <= j < i :: !kids[j].enabled
      {
        kids[i].enabled := false;
      }
    }

    /** The second pass: one delayed enable per child, in list order. */
    method ScheduleEnables(kids: seq<SceneNode>)
      requires queue.Valid()
      modifies `queue
      ensures queue == ScheduleAll(old(queue), EnablePlan(kids, startDelay, delayBetween))
    {
      ghost var q0 := queue;
      var plan := EnablePlan(kids, startDelay, delayBetween);
      for i := 0 to |kids|
        invariant queue == ScheduleAll(q0, plan[..i])
      {
        ScheduleAllSnoc(q0, plan[..i], plan[i]);
        assert plan[..i + 1] == plan[..i] + [plan[i]];
        queue := Schedule(queue, EnableDelay(startDelay, delayBetween, i), kids[i]);
      }
      assert plan[..|kids|] == plan;
    }

    /** The host clock moves on to `t`. */
    method AdvanceClock(t: real)
      requires queue.Valid() && queue.now <= t
      modifies `queue
      ensures queue.Valid() && queue == AdvanceTo(old(queue), t)
    {
      queue := AdvanceTo(queue, t);
    }

    /** The runtime fires the due callback `h`: its child is enabled (the rotation tween is not modelled). */
    method Fire(h: Handle) returns (fired: bool)
      requires queue.Valid()
      modifies `queue, (if h in queue.pending then {queue.pending[h].action} else {})`enabled
      ensures queue.Valid()
      ensures fired == old(Due(queue, h))
      ensures !fired ==> unchanged(this)
      ensures fired ==> old(queue.pending[h].action).enabled && queue == Cancel(old(queue), h)
    {
      if !Due(queue, h) {
        return false;
      }
      fired := true;
      var child := queue.pending[h].action;
      queue := Cancel(queue, h);
      child.enabled := true;
    }
  }
}

=== FILE: geometry.dfy ===
/** The part of the host's vector type the model needs: three real components. */
module Geometry {
  datatype Vec3 = Vec3(x: real, y: real, z: real)
}

=== FILE: scheduling.dfy ===
/**
 * The host runtime's delayed-callback events (`createEvent("DelayedCallbackEvent")`,
 * `reset(delay)`, `removeEvent`), and the completion of a tween, seen as one thing:
 * an action that becomes due a fixed time after it was scheduled and can be removed
 * before it fires.  Time is abstract: `now` only moves forward when the host says so.
 */
module Scheduling {
  import opened Wrappers

  type Handle = nat

  /** A pending event: the time at which it becomes due and what it does then. */
  datatype Timed<A> = Timed(fireAt: real, action: A)

  /** A request to run `action` `delay` seconds after the moment it is scheduled. */
  datatype Delayed<A> = Delayed(delay: real, action: A)

  /** The pending events of one component, by handle; `next` is the next fresh handle. */
  datatype Queue<A> = Queue(now: real, pending: map<Handle, Timed<A>>, next: Handle) {
    ghost predicate Valid() {
      forall h | h in pending :: h < next
    }
  }

  function EmptyQueue<A>(now: real): (q: Queue<A>)
    ensures q.Valid() && q.now == now && q.pending == map[]
  {
    Queue(now, map[], 0)
  }

  /** `reset(delay)` on a new event: it gets the fresh handle `q.next` and is due at `now + delay`. */
  function Schedule<A>(q: Queue<A>, delay: real, a: A): (r: Queue<A>)
    requires q.Valid()
    ensures r.Valid() && r.now == q.now && r.next == q.next + 1
    ensures q.next !in q.pending && q.next in r.pending
    ensures r.pending[q.next] == Timed(q.now + delay, a)
    ensures forall h | h in q.pending :: h in r.pending && r.pending[h] == q.pending[h]
    ensures forall h | h in r.pending :: h in q.pending || h == q.next
  {
    Queue(q.now, q.pending[q.next := Timed(q.now + delay, a)], q.next + 1)
  }

  /**
   * `removeEvent(h)`, and also what the runtime does with an event once it has fired.
   * Removing a handle that already fired, or was already removed, changes nothing.
   */
  function Cancel<A>(q: Queue<A>, h: Handle): (r: Queue<A>)
    requires q.Valid()
    ensures r.Valid() && r.now == q.now && r.next == q.next
    ensures h !in r.pending
    ensures forall g :: g in r.pending <==> g in q.pending && g != h
    ensures forall g | g in r.pending :: r.pending[g] == q.pending[g]
    ensures h !in q.pending ==> r == q
  {
    Queue(q.now, q.pending - {h}, q.next)
  }

  /** Cancel the event a nullable handle field refers to, if there is one. */
  function CancelIf<A>(q: Queue<A>, h: Option<Handle>): (r: Queue<A>)
    requires q.Valid()
    ensures r.Valid() && r.now == q.now && r.next == q.next
    ensures h.Some? ==> h.value !in r.pending
    ensures forall g :: g in r.pending <==> g in q.pending && h != Some(g)
    ensures forall g | g in r.pending :: r.pending[g] == q.pending[g]
  {
    if h.Some? then Cancel(q, h.value) else q
  }

  /** An event may fire once the clock has reached its due time. */
  predicate Due<A>(q: Queue<A>, h: Handle) {
    h in q.pending && q.pending[h].fireAt <= q.now
  }

  /** The host clock moves forward to `t`; nothing fires by itself. */
  function AdvanceTo<A>(q: Queue<A>, t: real): (r: Queue<A>)
    requires q.Valid() && q.now <= t
    ensures r.Valid() && r.now == t && r.pending == q.pending && r.next == q.next
  {
    q.(now := t)
  }

  /**
   * Scheduling every request of `es`, in order, at the same moment.  The i-th request
   * gets handle `q.next + i`; nothing already pending is touched.
   */
  function ScheduleAll<A>(q: Queue<A>, es: seq<Delayed<A>>): (r: Queue<A>)
    requires q.Valid()
    ensures r.Valid() && r.now == q.now && r.next == q.next + |es|
    ensures forall h | h in q.pending :: h in r.pending && r.pending[h] == q.pending[h]
    ensures forall h | h in r.pending :: h in q.pending || q.next <= h < q.next + |es|
    decreases |es|
  {
    if es == [] then q
    else
      var last := es[|es| - 1];
      Schedule(ScheduleAll(q, es[..|es| - 1]), last.delay, last.action)
  }

  /** The request at position `i` is pending under handle `q.next + i`, due `delay` after `now`. */
  lemma {:induction false} ScheduleAllAt<A>(q: Queue<A>, es: seq<Delayed<A>>, i: nat)
    requires q.Valid() && i < |es|
    ensures q.next + i in ScheduleAll(q, es).pending
    ensures ScheduleAll(q, es).pending[q.next + i] == Timed(q.now + es[i].delay, es[i].action)
    decreases |es|
  {
    if i < |es| - 1 {
      ScheduleAllAt(q, es[..|es| - 1], i);
    }
  }

  /** What the loops that schedule one event per element rely on: one more request is one more `Schedule`. */
  lemma ScheduleAllSnoc<A>(q: Queue<A>, es: seq<Delayed<A>>, e: Delayed<A>)
    requires q.Valid()
    ensures ScheduleAll(q, es + [e]) == Schedule(ScheduleAll(q, es), e.delay, e.action)
  {
    assert (es + [e])[..|es|] == es;
  }
}

=== FILE: start_star_anim.dfy ===
/**
 * The idle bounce of the start star (`StartStarBounce`): once started, the star moves up
 * by `bounceDistance` and back down to where it was, one tween per step, each step
 * starting the other when its tween completes, for as long as `isAnimating` stays set.
 *
 * A tween is modelled by its completion only: an `Arrive` event, due `bounceDuration`
 * seconds after the step began, that puts the star at the step's target and then runs the
 * other step.  The star's local position is the field `position`.
 */
module StarBounce {
  import opened Wrappers
  import opened Geometry
  import opened Scheduling

  /** The two steps of the loop: `bounceUp` and `bounceDown`. */
  datatype Step = Up | Down

  /** The step that a step's completion starts. */
  function Flip(s: Step): Step {
    if s == Up then Down else Up
  }

  /**
   * Where a step moves the star, given the origin recorded at start: the up step raises
   * the origin by `distance` along y and leaves x and z alone, the down step returns
   * to the origin itself.
   */
  function Target(origin: Vec3, distance: real, s: Step): (p: Vec3)
    ensures p.x == origin.x && p.z == origin.z
    ensures s == Up ==> p.y - origin.y == distance
    ensures s == Down ==> p == origin
  {
    match s
    case Up => Vec3(origin.x, origin.y + distance, origin.z)
    case Down => origin
  }

  /** The step in flight `k` completions after a chain of steps began with `s`. */
  function StepAfter(s: Step, k: nat): Step {
    if k == 0 then s else Flip(StepAfter(s, k - 1))
  }

  /** Steps alternate: after an even number of completions the chain is on the step it began with. */
  lemma {:induction false} StepAfterAlternates(s: Step, k: nat)
    ensures StepAfter(s, k) == (if k % 2 == 0 then s else Flip(s))
  {
    if k > 0 {
      StepAfterAlternates(s, k - 1);
    }
  }

  /**
   * A chain begun by `startBounce` (an up step) targets the raised position on every
   * even step and the origin on every odd one, so the star comes back to where it was
   * after every second completed step.
   */
  lemma BackHomeEverySecondStep(origin: Vec3, distance: real, k: nat)
    ensures Target(origin, distance, StepAfter(Up, 2 * k + 1)) == origin
    ensures Target(origin, distance, StepAfter(Up, 2 * k)) == Vec3(origin.x, origin.y + distance, origin.z)
  {
    StepAfterAlternates(Up, 2 * k + 1);
    StepAfterAlternates(Up, 2 * k);
  }

  /** The events of the component: its start event, and the completion of a step's tween. */
  datatype BounceEvent = OnStart | Arrive(target: Vec3, step: Step)

  class StartStarBounce {
    const bounceDistance: real
    const bounceDuration: real
    const autoStart: bool
    var position: Vec3
    var originalPosition: Option<Vec3>
    var isAnimating: bool
    var queue: Queue<BounceEvent>
    /** The handle of the tween in flight of the chain the latest `StartBounce` began. */
    ghost var current: Handle
    /** How many steps of that chain have completed. */
    ghost var steps: nat

    /**
     * While the bounce is on, an origin is recorded and the latest chain has exactly one
     * step in flight: the step `steps` completions after the first up step, heading for
     * that step's target from the recorded origin.
     */
    ghost predicate Valid()
      reads this
    {
      && queue.Valid()
      && (isAnimating ==>
            && originalPosition.Some?
            && current in queue.pending
            && queue.pending[current].action.Arrive?
            && queue.pending[current].action.step == StepAfter(Up, steps)
            && queue.pending[current].action.target
               == Target(originalPosition.value, bounceDistance, queue.pending[current].action.step))
    }

    /** `onAwake`: the start event that begins the bounce is registered only under `autoStart`. */
    constructor (bounceDistance: real, bounceDuration: real, autoStart: bool, position: Vec3, now: real)
      ensures Valid()
      ensures this.bounceDistance == bounceDistance && this.bounceDuration == bounceDuration
      ensures this.autoStart == autoStart && this.position == position
      ensures originalPosition == None && !isAnimating
      ensures autoStart ==> queue == Queue(now, map[0 := Timed(now, OnStart)], 1)
      ensures !autoStart ==> queue == EmptyQueue(now)
    {
      this.bounceDistance := bounceDistance;
      this.bounceDuration := bounceDuration;
      this.autoStart := autoStart;
      this.position := position;
      originalPosition := None;
      isAnimating := false;
      current, steps := 0, 0;
      if autoStart {
        queue := Schedule(EmptyQueue(now), 0.0, OnStart);
      } else {
        queue := EmptyQueue(now);
      }
    }

    /**
     * While the bounce is on, the latest chain is heading up on its even steps and back to
     * the recorded origin on its odd ones.
     */
    lemma InFlightAlternates()
      requires Valid() && isAnimating
      ensures var o := originalPosition.value;
        queue.pending[current].action.target
        == if steps % 2 == 0 then Vec3(o.x, o.y + bounceDistance, o.z) else o
    {
      StepAfterAlternates(Up, steps);
    }

    /**
     * `startBounce`: does nothing while the bounce is already on; otherwise records the
     * current position as the origin, sets the flag and begins the up step.  A tween still
     * in flight from an earlier, stopped bounce is left to complete.
     */
    method StartBounce()
      requires Valid()
      modifies `originalPosition, `isAnimating, `queue, `current, `steps
      ensures Valid() && isAnimating
      ensures old(isAnimating) ==> unchanged(this)
      ensures !old(isAnimating) ==>
        && originalPosition == Some(position)
        && queue == Schedule(old(queue), bounceDuration, Arrive(Target(position, bounceDistance, Up), Up))
        && current == old(queue.next) && steps == 0
    {
      if isAnimating {
        return;
      }
      originalPosition := Some(position);
      isAnimating := true;
      current, steps := queue.next, 0;
      BounceUp();
    }

    /** `stopBounce`: clears the flag; the tween in flight, if any, still completes. */
    method StopBounce()
      requires Valid()
      modifies `isAnimating
      ensures Valid() && !isAnimating
    {
      isAnimating := false;
    }

    /** `bounceUp`: starts the tween to the raised position, unless stopped or never started. */
    method BounceUp()
      requires queue.Valid()
      modifies `queue
      ensures queue.Valid() && queue.now == old(queue.now)
      ensures isAnimating && originalPosition.Some? ==>
        queue == Schedule(old(queue), bounceDuration, Arrive(Target(originalPosition.value, bounceDistance, Up), Up))
      ensures !(isAnimating && originalPosition.Some?) ==> queue == old(queue)
    {
      if !isAnimating || originalPosition.None? {
        return;
      }
      var upPos := Vec3(originalPosition.value.x, originalPosition.value.y + bounceDistance, originalPosition.value.z);
      queue := Schedule(queue, bounceDuration, Arrive(upPos, Up));
    }

    /** `bounceDown`: starts the tween back to the recorded origin, unless stopped or never started. */
    method BounceDown()
      requires queue.Valid()
      modifies `queue
      ensures queue.Valid() && queue.now == old(queue.now)
      ensures isAnimating && originalPosition.Some? ==>
        queue == Schedule(old(queue), bounceDuration, Arrive(Target(originalPosition.value, bounceDistance, Down), Down))
      ensures !(isAnimating && originalPosition.Some?) ==> queue == old(queue)
    {
      if !isAnimating || originalPosition.None? {
        return;
      }
      queue := Schedule(queue, bounceDuration, Arrive(originalPosition.value, Down));
    }

    /** The host clock moves on to `t`. */
    method AdvanceClock(t: real)
      requires Valid() && queue.now <= t
      modifies `queue
      ensures Valid() && queue == AdvanceTo(old(queue), t)
    {
      queue := AdvanceTo(queue, t);
    }

    /**
     * The runtime fires the due event `h`.  The start event runs `startBounce`.  A tween's
     * completion puts the star at its target and, while the bounce is on, starts the other
     * step toward its target; once the bounce is stopped it starts nothing, so the loop ends
     * with the step in flight.  Only the latest chain's own completion moves that chain on.
     */
    method Fire(h: Handle) returns (fired: bool)
      requires Valid()
      modifies this
      ensures Valid()
      ensures fired == old(Due(queue, h))
      ensures !fired ==> unchanged(this)
      ensures fired && old(queue.pending[h].action) == OnStart ==>
        && position == old(position)
        && (old(isAnimating) ==>
              && isAnimating && originalPosition == old(originalPosition)
              && queue == Cancel(old(queue), h) && current == old(current) && steps == old(steps))
        && (!old(isAnimating) ==>
              && isAnimating && originalPosition == Some(old(position))
              && queue == Schedule(Cancel(old(queue), h), bounceDuration,
                                   Arrive(Target(old(position), bounceDistance, Up), Up))
              && current == old(queue.next) && steps == 0)
      ensures fired && old(queue.pending[h].action).Arrive? ==>
        var step := old(queue.pending[h].action.step);
        && position == old(queue.pending[h].action.target)
        && isAnimating == old(isAnimating) && originalPosition == old(originalPosition)
        && (!isAnimating ==> queue == Cancel(old(queue), h))
        && (isAnimating ==>
              queue == Schedule(Cancel(old(queue), h), bounceDuration,
                                Arrive(Target(originalPosition.value, bounceDistance, Flip(step)), Flip(step))))
        && (isAnimating && h == old(current) ==> current == old(queue.next) && steps == old(steps) + 1)
        && (!(isAnimating && h == old(current)) ==> current == old(current) && steps == old(steps))
    {
      if !Due(queue, h) {
        return false;
      }
      fired := true;
      var e := queue.pending[h].action;
      queue := Cancel(queue, h);
      match e
      case OnStart =>
        StartBounce();
      case Arrive(target, step) =>
        position := target;
        if isAnimating && h == current {
          current, steps := queue.next, steps + 1;
        }
        if step == Up {
          BounceDown();
        } else {
          BounceUp();
        }
    }
  }
}

=== FILE: winter_star_controller.dfy ===
/**
 * The Winter Star controller: the phase machine, the fragment-collection gate with its
 * failsafe, and the single-channel message sequencer, as one object whose methods are
 * the source's callbacks.  The host runtime appears only through the component's event
 * queue: `Fire` is the runtime firing a due event, `Update` is a frame at a later time.
 */
module WinterStar {
  import opened Wrappers
  import opened Scheduling
  import opened WinterStarSpec
  import opened WinterStarInvariant

  /** The failsafe's sweep over the fragments: every one not yet collected is collected. */
  method CollectRemaining(fragments: seq<Fragment>) returns (fs: seq<Fragment>)
    ensures fs == ForceCollect(fragments)
  {
    fs := fragments;
    var k := 0;
    while k < |fs|
      invariant 0 <= k <= |fs| == |fragments|
      invariant forall j | 0 <= j < k :: fs[j] == ForceCollectOne(fragments[j])
      invariant forall j | k <= j < |fs| :: fs[j] == fragments[j]
    {
      if !fs[k].collected {
        fs := fs[k := Collect(fs[k])];
      }
      k := k + 1;
    }
  }

  /** One entry of the reveal loop: an assigned entry schedules its reveal with the next draw, any other nothing. */
  lemma ScheduleRevealsStep(q: Queue<Action>, slots: seq<Option<bool>>, g: Group, range: RevealRange,
                            rand: nat -> real, k0: nat, i: nat)
    requires q.Valid() && i < |slots|
    ensures var r, k := ScheduleAll(q, RevealPlan(slots[..i], g, range, rand, k0)), k0 + AssignedCount(slots[..i]);
      && (slots[i].Some? ==>
            && ScheduleAll(q, RevealPlan(slots[..i + 1], g, range, rand, k0))
               == Schedule(r, RevealDelay(range, rand(k)), Reveal(g, i))
            && k0 + AssignedCount(slots[..i + 1]) == k + 1)
      && (slots[i].None? ==>
            && ScheduleAll(q, RevealPlan(slots[..i + 1], g, range, rand, k0)) == r
            && k0 + AssignedCount(slots[..i + 1]) == k)
  {
    RevealPlanStep(slots, g, range, rand, k0, i);
    if slots[i].Some? {
      var k := k0 + AssignedCount(slots[..i]);
      ScheduleAllSnoc(q, RevealPlan(slots[..i], g, range, rand, k0), Delayed(RevealDelay(range, rand(k)), Reveal(g, i)));
    }
  }

  /**
   * One reveal per assigned entry of a list, scheduled in list order with its delay drawn
   * from the range; `k0` counts the random draws made before, `k` those made after.
   */
  method ScheduleReveals(q: Queue<Action>, slots: seq<Option<bool>>, g: Group, range: RevealRange,
                         rand: nat -> real, k0: nat) returns (r: Queue<Action>, k: nat)
    requires q.Valid()
    ensures r == ScheduleAll(q, RevealPlan(slots, g, range, rand, k0))
    ensures k == k0 + AssignedCount(slots)
  {
    r := q;
    k := k0;
    for i := 0 to |slots|
      invariant r == ScheduleAll(q, RevealPlan(slots[..i], g, range, rand, k0))
      invariant k == k0 + AssignedCount(slots[..i])
    {
      ScheduleRevealsStep(q, slots, g, range, rand, k0, i);
      if slots[i].Some? {
        r := Schedule(r, RevealDelay(range, rand(k)), Reveal(g, i));
        k := k + 1;
      }
    }
    assert slots[..|slots|] == slots;
  }

  class WinterStarController {
    const cfg: Config

    var state: State
    var fragmentsCollected: nat
    var fragments: seq<Fragment>
    var failsafeTimer: Option<Handle>
    var queue: Queue<Action>

    // Scene flags the model keeps: the wind object, cached decoration scales, reveal lists.
    var windVisible: bool
    var aux: seq<Aux>
    var ornaments: seq<Option<bool>>
    var landscape: seq<Option<bool>>

    // The message channel.
    var ui: MessageChannel

    /** How many phases have been entered so far; `Entered(phaseCount)` lists them in order. */
    ghost var phaseCount: nat
    /** The handle of the one pending event that will move the narrative on, if any. */
    ghost var driver: Option<Handle>

    /** Everything the object keeps at all times, whether or not the current phase's driving event is pending. */
    ghost predicate Settled()
      reads `queue, `ui, `driver, `failsafeTimer, `phaseCount, `state, `fragments, `fragmentsCollected
    {
      && ChannelsAgree(queue, ui.holdDelayEvt, driver, failsafeTimer)
      && FadeWellFormed(queue.now, ui)
      && PhasesWellFormed(phaseCount, state, fragments, fragmentsCollected)
    }

    ghost predicate DriverIs(a: Action)
      reads `driver, `queue
    {
      DrivesWith(queue, driver, a)
    }

    /** The current phase's driving event is pending (see `PhaseDriven`). */
    ghost predicate Driven()
      reads `phaseCount, `state, `driver, `queue, `fragments, `fragmentsCollected
    {
      PhaseDriven(phaseCount, state, queue, driver, fragments, fragmentsCollected)
    }

    /** The object invariant. */
    ghost predicate Valid()
      reads `queue, `ui, `driver, `failsafeTimer, `phaseCount, `state, `fragments, `fragmentsCollected
    {
      Settled() && Driven()
    }

    /** The driving event, if it was pending, still is, unchanged. */
    twostate predicate DriverKept()
      reads `driver, `queue
    {
      && driver == old(driver)
      && (driver.Some? && driver.value in old(queue.pending) ==>
            driver.value in queue.pending && queue.pending[driver.value] == old(queue.pending[driver.value]))
    }

    /**
     * The state after `init`: fragments set up uncollected, decorations' scales cached,
     * wind and reveal lists hidden, no message, nothing scheduled.
     */
    constructor (cfg: Config, interactables: seq<Option<bool>>, aux: seq<Aux>,
                 ornaments: seq<bool>, landscape: seq<bool>, textAlpha: real, now: real)
      requires 0.0 <= textAlpha <= 1.0
      ensures Valid() && this.cfg == cfg
      ensures phaseCount == 0 && state == Descending && driver == None
      ensures fragments == SetUpFragments(interactables) && fragmentsCollected == 0
      ensures failsafeTimer == None && queue == EmptyQueue(now)
      ensures this.aux == CacheScales(aux) && !windVisible
      ensures this.ornaments == Hidden(ornaments) && this.landscape == Hidden(landscape)
      ensures ui == MessageChannel("", textAlpha, None, now, 0.0, None, None)
    {
      this.cfg := cfg;
      state := Descending;
      fragmentsCollected := 0;
      fragments := SetUpFragments(interactables);
      failsafeTimer := None;
      queue := EmptyQueue(now);
      windVisible := false;
      this.aux := CacheScales(aux);
      this.ornaments := Hidden(ornaments);
      this.landscape := Hidden(landscape);
      ui := MessageChannel("", textAlpha, None, now, 0.0, None, None);
      phaseCount := 0;
      driver := None;
      CountNone(SetUpFragments(interactables));
    }

    // ------------------------------------------------------------ phase machine

    /** The start of the sequence: enter Descending and start the descent tween. */
    method StartStarSequence()
      requires Valid() && phaseCount == 0
      modifies `state, `phaseCount, `driver, `queue
      ensures Valid() && state == Descending && phaseCount == 1 && Entered(phaseCount) == [Descending]
      ensures queue == Schedule(old(queue), cfg.descentDuration, DescentDone)
      ensures driver == Some(old(queue.next))
    {
      EnterNext(0);
      AgreeScheduleDriver(queue, cfg.descentDuration, DescentDone, ui.holdDelayEvt, failsafeTimer);
      state, phaseCount := Descending, 1;
      driver, queue := Some(queue.next), Schedule(queue, cfg.descentDuration, DescentDone);
    }

    /** The runtime fires the event `h` if it is pending and due; otherwise nothing happens. */
    method Fire(h: Handle, rand: nat -> real) returns (fired: bool)
      requires Valid()
      modifies this
      ensures Valid()
      ensures fired == old(Due(queue, h))
      ensures !fired ==> unchanged(this)
      ensures queue.now == old(queue.now)
      ensures phaseCount == old(phaseCount) + (if state == old(state) then 0 else 1)
      ensures state != old(state) ==>
        fired && Trigger(old(state)) == Some(old(queue.pending[h].action))
        && Entered(phaseCount) == Entered(old(phaseCount)) + [state]
      ensures CollectedKept(old(fragments), fragments)
      ensures fired && !IsDriver(old(queue.pending[h].action)) ==>
        && queue == Cancel(old(queue), h) && state == old(state) && fragments == old(fragments)
      ensures fired && old(queue.pending[h].action) == HoldElapsed ==>
        ui == old(ui).(phase := Some(Out), phaseStartTime := queue.now, phaseDuration := ClampDuration(cfg.uiFadeOutSeconds))
      ensures fired && IsDriver(old(queue.pending[h].action)) && old(queue.pending[h].action) != Failsafe ==>
        state != old(state)
      ensures fired && !IsDriver(old(queue.pending[h].action)) ==>
        && fragmentsCollected == old(fragmentsCollected) && failsafeTimer == old(failsafeTimer)
        && aux == old(aux) && driver == old(driver) && phaseCount == old(phaseCount)
        && (old(queue.pending[h].action) != HoldElapsed ==> ui == old(ui))
        && (old(queue.pending[h].action) == HideWind ==> ornaments == old(ornaments) && landscape == old(landscape))
    {
      fired := Due(queue, h);
      if !fired {
        return;
      }
      var a := queue.pending[h].action;
      TracksAt(queue, DriverChannel, driver, h);
      AgreeCancel(queue, h, ui.holdDelayEvt, driver, failsafeTimer, ui.holdDelayEvt, Drop(driver, h), failsafeTimer);
      queue := Cancel(queue, h);
      driver := Drop(driver, h);
      if IsDriver(a) {
        AdvancePhase(a, rand);
      } else {
        ApplyEffect(a);
      }
    }

    /** A fired phase-driving event moves the narrative on; `a` was pending and has just been removed. */
    method AdvancePhase(a: Action, rand: nat -> real)
      requires Settled() && IsDriver(a) && driver == None && phaseCount != 0
      requires a != Failsafe && a != Unify ==> Trigger(state) == Some(a)
      requires a == Failsafe ==> state == Collecting && fragmentsCollected == CollectedCount(fragments)
      requires a == Unify ==> state == Collecting && AllCollected(fragments)
      modifies this
      ensures Valid()
      ensures queue.now == old(queue.now)
      ensures phaseCount == old(phaseCount) + (if state == old(state) then 0 else 1)
      ensures state != old(state) ==>
        Trigger(old(state)) == Some(a) && Entered(phaseCount) == Entered(old(phaseCount)) + [state]
      ensures a != Failsafe ==> state != old(state)
      ensures CollectedKept(old(fragments), fragments)
    {
      match a {
        case DescentDone =>
          AdvanceOpening(a);
        case Explode =>
          AdvanceOpening(a);
        case BeginCollecting =>
          StartCollecting();
        case Failsafe =>
          EndCollecting(a, rand);
        case Unify =>
          EndCollecting(a, rand);
        case Finish =>
          CompleteExperience();
      }
    }

    /** A driving event of the opening: the descent's completion, or the delay after the wind. */
    method AdvanceOpening(a: Action)
      requires Settled() && driver == None && (a == DescentDone || a == Explode) && Trigger(state) == Some(a)
      requires phaseCount == Rank(state) + 1
      modifies this
      ensures Valid()
      ensures queue.now == old(queue.now)
      ensures a == DescentDone ==> state == WindBlowing
      ensures a == Explode ==> state == Exploding
      ensures phaseCount == old(phaseCount) + 1
      ensures Entered(phaseCount) == Entered(old(phaseCount)) + [state]
      ensures fragments == old(fragments)
    {
      if a == DescentDone {
        OnDescentComplete();
      } else {
        OnExplosionDelay();
      }
    }

    /** A driving event that fires in Collecting: the failsafe's sweep, or unification. */
    method EndCollecting(a: Action, rand: nat -> real)
      requires Settled() && driver == None && state == Collecting && phaseCount == 4
      requires a == Failsafe || a == Unify
      requires a == Failsafe ==> fragmentsCollected == CollectedCount(fragments)
      requires a == Unify ==> AllCollected(fragments)
      modifies this
      ensures Valid()
      ensures queue.now == old(queue.now)
      ensures a == Failsafe ==> state == old(state) && phaseCount == old(phaseCount)
      ensures a == Failsafe ==>
        (fragments == ForceCollect(old(fragments)) && AllCollected(fragments)
         && queue == Schedule(old(queue), cfg.collectDuration + 0.5, Unify))
      ensures a == Unify ==>
        && state == Unifying && phaseCount == old(phaseCount) + 1
        && Entered(phaseCount) == Entered(old(phaseCount)) + [Unifying]
      ensures CollectedKept(old(fragments), fragments)
    {
      if a == Failsafe {
        OnFailsafeTriggered();
        ForceCollectCompletes(old(fragments));
      } else {
        StartUnification(rand);
      }
    }

    /** A fired event that does not drive the narrative: hide the wind, end a hold, reveal one slot. */
    method ApplyEffect(a: Action)
      requires Valid() && !IsDriver(a)
      modifies `windVisible, `ui, `ornaments, `landscape
      ensures Valid()
      ensures a == HideWind ==>
        && windVisible == (old(windVisible) && !cfg.hasWind)
        && ui == old(ui) && ornaments == old(ornaments) && landscape == old(landscape)
      ensures a == HoldElapsed ==>
        && ui == old(ui).(phase := Some(Out), phaseStartTime := queue.now,
                          phaseDuration := ClampDuration(cfg.uiFadeOutSeconds))
        && windVisible == old(windVisible) && ornaments == old(ornaments) && landscape == old(landscape)
      ensures a.Reveal? ==>
        && (old(Assigned(a.group, a.slot)) ==> SlotsOf(a.group) == old(SlotsOf(a.group))[a.slot := Some(true)])
        && (!old(Assigned(a.group, a.slot)) ==> SlotsOf(a.group) == old(SlotsOf(a.group)))
        && (a.group == OrnamentGroup ==> landscape == old(landscape))
        && (a.group == LandscapeGroup ==> ornaments == old(ornaments))
        && windVisible == old(windVisible) && ui == old(ui)
    {
      match a {
        case HideWind =>
          if cfg.hasWind {
            windVisible := false;
          }
        case HoldElapsed =>
          StartUIPhase(Out, cfg.uiFadeOutSeconds);
        case Reveal(g, i) =>
          RevealSlot(g, i);
      }
    }

    /** After the descent: record the fragments' positions and cache the decorations' scales. */
    method StoreFragmentPositions()
      modifies `aux
      ensures aux == CacheScales(old(aux))
    {
      CacheAuxScales();
    }

    /** Cache each assigned decoration's current scale, unless one is already cached. */
    method CacheAuxScales()
      modifies `aux
      ensures aux == CacheScales(old(aux))
    {
      aux := CacheScales(aux);
    }

    /** The descent tween's completion: record the fragments' positions, then enter WindBlowing. */
    method OnDescentComplete()
      requires Settled() && state == Descending && phaseCount == 1 && driver == None
      modifies `state, `phaseCount, `driver, `queue, `windVisible, `aux
      ensures Valid() && state == WindBlowing && phaseCount == old(phaseCount) + 1
      ensures Entered(phaseCount) == Entered(old(phaseCount)) + [WindBlowing]
      ensures queue == ScheduleAll(old(queue), WindStep(cfg.hasWind, cfg.windVisibleDuration))
      ensures DriverIs(Explode) && queue.pending[driver.value].fireAt == queue.now + 1.0
      ensures windVisible == (cfg.hasWind || old(windVisible))
      ensures aux == CacheScales(old(aux))
    {
      StoreFragmentPositions();
      TriggerWind();
    }

    /** The delay after the wind: announce the shattering, then enter Exploding. */
    method OnExplosionDelay()
      requires Settled() && state == WindBlowing && phaseCount == 2 && driver == None
      modifies `state, `phaseCount, `driver, `queue, `ui
      ensures Valid() && state == Exploding && phaseCount == old(phaseCount) + 1
      ensures Entered(phaseCount) == Entered(old(phaseCount)) + [Exploding]
      ensures queue.now == old(queue.now)
      ensures var (u, q) := Shown(cfg, old(ui), old(queue), ShatteredMessage());
        && ui == u
        && queue == ScheduleAll(q, ExplodeStep(cfg.explosionDuration))
      ensures DriverIs(BeginCollecting) && queue.pending[driver.value].fireAt == queue.now + cfg.explosionDuration
    {
      ShowUI(ShatteredMessage());
      ExplodeFragments();
    }

    /** Enter WindBlowing: show the wind and schedule its hiding, and the explosion one second later. */
    method TriggerWind()
      requires Settled() && state == Descending && phaseCount == 1 && driver == None
      modifies `state, `phaseCount, `driver, `queue, `windVisible
      ensures Valid() && state == WindBlowing && phaseCount == old(phaseCount) + 1
      ensures Entered(phaseCount) == Entered(old(phaseCount)) + [WindBlowing]
      ensures queue == ScheduleAll(old(queue), WindStep(cfg.hasWind, cfg.windVisibleDuration))
      ensures DriverIs(Explode) && queue.pending[driver.value].fireAt == queue.now + 1.0
      ensures windVisible == (cfg.hasWind || old(windVisible))
    {
      EnterNext(1);
      WindStepSchedules(queue, cfg.hasWind, cfg.windVisibleDuration);
      var q := queue;
      if cfg.hasWind {
        windVisible := true;
        AgreeSchedule(q, cfg.windVisibleDuration, HideWind, ui.holdDelayEvt, None, failsafeTimer);
        q := Schedule(q, cfg.windVisibleDuration, HideWind);
      }
      AgreeScheduleDriver(q, 1.0, Explode, ui.holdDelayEvt, failsafeTimer);
      state, phaseCount := WindBlowing, phaseCount + 1;
      driver, queue := Some(q.next), Schedule(q, 1.0, Explode);
    }

    /** Enter Exploding: Collecting begins once the explosion's duration has elapsed. */
    method ExplodeFragments()
      requires Settled() && state == WindBlowing && phaseCount == 2 && driver == None
      modifies `state, `phaseCount, `driver, `queue
      ensures Valid() && state == Exploding && phaseCount == old(phaseCount) + 1
      ensures Entered(phaseCount) == Entered(old(phaseCount)) + [Exploding]
      ensures queue == ScheduleAll(old(queue), ExplodeStep(cfg.explosionDuration))
      ensures DriverIs(BeginCollecting) && queue.pending[driver.value].fireAt == queue.now + cfg.explosionDuration
    {
      EnterNext(2);
      ExplodeStepSchedules(queue, cfg.explosionDuration);
      AgreeScheduleDriver(queue, cfg.explosionDuration, BeginCollecting, ui.holdDelayEvt, failsafeTimer);
      state, phaseCount := Exploding, phaseCount + 1;
      driver, queue := Some(queue.next), Schedule(queue, cfg.explosionDuration, BeginCollecting);
    }

    /** Enter Collecting: show the introduction and arm the failsafe. */
    method StartCollecting()
      requires Settled() && state == Exploding && phaseCount == 3 && driver == None
      modifies `state, `phaseCount, `failsafeTimer, `driver, `queue, `ui
      ensures Valid() && state == Collecting && phaseCount == old(phaseCount) + 1
      ensures Entered(phaseCount) == Entered(old(phaseCount)) + [Collecting]
      ensures DriverIs(Failsafe) && failsafeTimer == driver
      ensures queue.pending[driver.value].fireAt == queue.now + cfg.failsafeTimeout
      ensures queue.now == old(queue.now)
      ensures var (u, q) := Shown(cfg, old(ui), old(queue), CollectIntroMessage());
        && ui == u
        && queue == Schedule(q, cfg.failsafeTimeout, Failsafe)
    {
      EnterNext(3);
      state, phaseCount := Collecting, phaseCount + 1;
      ShowUI(CollectIntroMessage());
      StartFailsafeTimer();
    }

    /** Arm the failsafe: one pending Failsafe event, tracked by failsafeTimer. */
    method StartFailsafeTimer()
      requires Settled() && driver == None
      modifies `failsafeTimer, `driver, `queue
      ensures Settled() && DriverIs(Failsafe)
      ensures queue == Schedule(old(queue), cfg.failsafeTimeout, Failsafe)
      ensures failsafeTimer == Some(old(queue.next)) && driver == failsafeTimer
    {
      AgreeScheduleFailsafe(queue, cfg.failsafeTimeout, ui.holdDelayEvt, failsafeTimer);
      failsafeTimer, driver := Some(queue.next), Some(queue.next);
      queue := Schedule(queue, cfg.failsafeTimeout, Failsafe);
    }

    /** Remove the pending failsafe, if any, and clear its handle; here the failsafe is what drives Collecting. */
    method DisarmFailsafe()
      requires Settled() && DriverIs(Failsafe)
      modifies `failsafeTimer, `driver, `queue
      ensures Settled() && failsafeTimer == None && driver == None
      ensures queue == CancelIf(old(queue), old(failsafeTimer))
    {
      TracksAt(queue, FailsafeChannel, failsafeTimer, driver.value);
      var t := failsafeTimer.value;
      AgreeCancel(queue, t, ui.holdDelayEvt, driver, failsafeTimer, ui.holdDelayEvt, None, None);
      queue := Cancel(queue, t);
      failsafeTimer, driver := None, None;
    }

    /**
     * A fragment is selected.  Ignored outside Collecting and for a fragment already
     * collected; otherwise the fragment is collected and counted, and either the last one
     * disarms the failsafe and schedules unification, or the remaining count is shown.
     */
    method OnFragmentSelected(i: nat)
      requires Valid() && i < |fragments|
      modifies `fragments, `fragmentsCollected, `failsafeTimer, `driver, `queue, `ui
      ensures Valid()
      ensures state == old(state) && phaseCount == old(phaseCount)
      ensures old(state) != Collecting || old(fragments[i].collected) ==> unchanged(this)
      ensures old(state) == Collecting && !old(fragments[i].collected) ==>
        && fragments == old(fragments)[i := Collect(old(fragments[i]))]
        && fragmentsCollected == old(fragmentsCollected) + 1
        && (fragmentsCollected >= |fragments| ==>
              && AllCollected(fragments)
              && failsafeTimer == None && Idle(queue, FailsafeChannel)
              && queue == Schedule(CancelIf(old(queue), old(failsafeTimer)), cfg.collectDuration + 0.05, Unify)
              && DriverIs(Unify) && ui == old(ui))
        && (fragmentsCollected < |fragments| ==>
              && DriverIs(Failsafe) && failsafeTimer == old(failsafeTimer)
              && (ui, queue) == Shown(cfg, old(ui), old(queue), RemainingNotice(|fragments| - fragmentsCollected)))
    {
      if state != Collecting {
        return;
      }
      if fragments[i].collected {
        return;
      }
      assert DriverIs(Failsafe) && fragmentsCollected == CollectedCount(fragments);
      CountAfterCollect(fragments, i);
      CollectFragment(i);
      if fragmentsCollected >= |fragments| {
        CountFullIffAll(fragments);
        DisarmFailsafe();
        AgreeScheduleDriver(queue, cfg.collectDuration + 0.05, Unify, ui.holdDelayEvt, failsafeTimer);
        driver, queue := Some(queue.next), Schedule(queue, cfg.collectDuration + 0.05, Unify);
      } else {
        var remaining := |fragments| - fragmentsCollected;
        ShowUI(RemainingNotice(remaining));
      }
    }

    /** Mark fragment `i` collected, disable its Interactable if it has one, and count it once. */
    method CollectFragment(i: nat)
      requires i < |fragments|
      modifies `fragments, `fragmentsCollected
      ensures fragments == old(fragments)[i := Collect(old(fragments[i]))]
      ensures fragmentsCollected == old(fragmentsCollected) + 1
    {
      fragments := fragments[i := Collect(fragments[i])];
      fragmentsCollected := fragmentsCollected + 1;
    }

    /**
     * The failsafe fires.  Outside Collecting it does nothing; otherwise every fragment not
     * yet collected is collected, the count is left as it is, and unification is scheduled.
     */
    method OnFailsafeTriggered()
      requires Settled()
      requires state == Collecting ==> driver == None
      requires state != Collecting ==> Driven()
      modifies `fragments, `driver, `queue
      ensures Valid()
      ensures old(state) != Collecting ==> unchanged(this)
      ensures old(state) == Collecting ==>
        && fragments == ForceCollect(old(fragments))
        && queue == Schedule(old(queue), cfg.collectDuration + 0.5, Unify)
        && DriverIs(Unify)
    {
      if state != Collecting {
        return;
      }
      fragments := CollectRemaining(fragments);
      ForceCollectCompletes(old(fragments));
      AgreeScheduleDriver(queue, cfg.collectDuration + 0.5, Unify, ui.holdDelayEvt, failsafeTimer);
      driver, queue := Some(queue.next), Schedule(queue, cfg.collectDuration + 0.5, Unify);
    }

    /** The list of scene objects a reveal group draws from. */
    function SlotsOf(g: Group): seq<Option<bool>>
      reads `ornaments, `landscape
    {
      match g
      case OrnamentGroup => ornaments
      case LandscapeGroup => landscape
    }

    /** Entry `i` of the group's list exists and is assigned. */
    predicate Assigned(g: Group, i: nat)
      reads `ornaments, `landscape
    {
      i < |SlotsOf(g)| && SlotsOf(g)[i].Some?
    }

    /** Both lists' reveal plans scheduled on `q`, ornaments first, their random draws numbered on from 0. */
    function RevealsScheduled(q: Queue<Action>, rand: nat -> real): Queue<Action>
      requires q.Valid()
      reads `ornaments, `landscape
    {
      var q1 := ScheduleAll(q, RevealPlan(ornaments, OrnamentGroup, RangeOf(cfg, OrnamentGroup), rand, 0));
      ScheduleAll(q1, RevealPlan(landscape, LandscapeGroup, RangeOf(cfg, LandscapeGroup), rand, AssignedCount(ornaments)))
    }

    /** Enter Unifying: announce it, schedule the randomized reveals and the end of the sequence. */
    method StartUnification(rand: nat -> real)
      requires Settled() && state == Collecting && phaseCount == 4 && driver == None
      modifies `state, `phaseCount, `driver, `queue, `ui
      ensures Valid() && state == Unifying && phaseCount == old(phaseCount) + 1
      ensures Entered(phaseCount) == Entered(old(phaseCount)) + [Unifying]
      ensures DriverIs(Finish)
      ensures queue.pending[driver.value].fireAt == queue.now + (cfg.unificationRiseDuration + 1.0)
      ensures queue.now == old(queue.now)
      ensures var (u, q) := Shown(cfg, old(ui), old(queue), UnifyMessage());
        && ui == u
        && queue == Schedule(RevealsScheduled(q, rand), cfg.unificationRiseDuration + 1.0, Finish)
    {
      EnterNext(4);
      state, phaseCount := Unifying, phaseCount + 1;
      ShowUI(UnifyMessage());
      ScheduleUnification(rand);
    }

    /** The reveals of both lists, then the end of the sequence as the driving event. */
    method ScheduleUnification(rand: nat -> real)
      requires Settled() && driver == None
      modifies `driver, `queue
      ensures Settled() && DriverIs(Finish)
      ensures queue == Schedule(RevealsScheduled(old(queue), rand), cfg.unificationRiseDuration + 1.0, Finish)
      ensures queue.pending[driver.value].fireAt == queue.now + (cfg.unificationRiseDuration + 1.0)
    {
      AnimateAllReveals(rand);
      var d := cfg.unificationRiseDuration + 1.0;
      AgreeScheduleDriver(queue, d, Finish, ui.holdDelayEvt, failsafeTimer);
      driver, queue := Some(queue.next), Schedule(queue, d, Finish);
    }

    /** `animateOrnaments` then `animateLandscapeElements`, the draws numbered on from the first list's. */
    method AnimateAllReveals(rand: nat -> real)
      requires Settled()
      modifies `queue
      ensures Settled() && DriverKept()
      ensures queue == RevealsScheduled(old(queue), rand)
    {
      var k := AnimateReveals(OrnamentGroup, rand, 0);
      k := AnimateReveals(LandscapeGroup, rand, k);
    }

    /**
     * Schedule one reveal per assigned entry of a list, with the delay drawn from its range;
     * `k0` is the number of random draws made before, and `k` the number made after.
     */
    method AnimateReveals(g: Group, rand: nat -> real, k0: nat) returns (k: nat)
      requires Settled()
      modifies `queue
      ensures Settled() && DriverKept()
      ensures queue == ScheduleAll(old(queue), RevealPlan(SlotsOf(g), g, RangeOf(cfg, g), rand, k0))
      ensures k == k0 + AssignedCount(SlotsOf(g))
    {
      var plan := RevealPlan(SlotsOf(g), g, RangeOf(cfg, g), rand, k0);
      AgreeScheduleAll(queue, plan, ui.holdDelayEvt, driver, failsafeTimer);
      queue, k := ScheduleReveals(queue, SlotsOf(g), g, RangeOf(cfg, g), rand, k0);
    }

    /** A reveal fires: the entry is shown. */
    method RevealSlot(g: Group, i: nat)
      modifies `ornaments, `landscape
      ensures old(Assigned(g, i)) ==> SlotsOf(g) == old(SlotsOf(g))[i := Some(true)]
      ensures !old(Assigned(g, i)) ==> SlotsOf(g) == old(SlotsOf(g))
      ensures g == OrnamentGroup ==> landscape == old(landscape)
      ensures g == LandscapeGroup ==> ornaments == old(ornaments)
    {
      match g {
        case OrnamentGroup =>
          if i < |ornaments| && ornaments[i].Some? {
            ornaments := ornaments[i := Some(true)];
          }
        case LandscapeGroup =>
          if i < |landscape| && landscape[i].Some? {
            landscape := landscape[i := Some(true)];
          }
      }
    }

    /** Enter Complete, the terminal phase, and show the final message. */
    method CompleteExperience()
      requires Settled() && state == Unifying && phaseCount == 5 && driver == None
      modifies `state, `phaseCount, `queue, `ui
      ensures Valid() && state == Complete && phaseCount == old(phaseCount) + 1
      ensures Entered(phaseCount) == Entered(old(phaseCount)) + [Complete]
      ensures queue.now == old(queue.now)
      ensures Idle(queue, DriverChannel)
      ensures (ui, queue) == Shown(cfg, old(ui), old(queue), FinalMessage())
    {
      EnterNext(5);
      state, phaseCount := Complete, phaseCount + 1;
      ShowUI(FinalMessage());
    }

    // ------------------------------------------------------------ message channel

    /**
     * Show a message.  Without a text component nothing changes.  Otherwise the previous
     * session is cancelled (its hold-timer removed, its phase and tag cleared), the text is
     * set at alpha 0 under the message's tag, the fade-in starts, and the fade-out is
     * scheduled after the fade-in plus the hold.
     */
    method ShowUI(m: Message)
      requires Settled()
      modifies `queue, `ui
      ensures Settled() && DriverKept()
      ensures queue.now == old(queue.now)
      ensures !cfg.hasText ==> unchanged(this)
      ensures (ui, queue) == Shown(cfg, old(ui), old(queue), m)
    {
      if !cfg.hasText {
        return;
      }
      CancelUIAnimation();
      ui := ui.(text := m.text, alpha := 0.0, currentTag := Some(m.tag));
      StartUIPhase(In, cfg.uiFadeInSeconds);
      var delay := cfg.uiFadeInSeconds + HoldFor(m, cfg);
      AgreeScheduleHold(queue, delay, driver, failsafeTimer);
      ui, queue := ui.(holdDelayEvt := Some(queue.next)), Schedule(queue, delay, HoldElapsed);
    }

    /** Start a fade phase now, with its duration clamped away from zero. */
    method StartUIPhase(p: UIPhase, duration: real)
      modifies `ui
      ensures ui == old(ui).(phase := Some(p), phaseStartTime := queue.now, phaseDuration := ClampDuration(duration))
      ensures FadeWellFormed(queue.now, old(ui)) ==> FadeWellFormed(queue.now, ui)
    {
      ui := ui.(phase := Some(p), phaseStartTime := queue.now, phaseDuration := ClampDuration(duration));
    }

    /** Drop the current session: remove its hold-timer and clear its phase and tag. */
    method CancelUIAnimation()
      requires Settled()
      modifies `queue, `ui
      ensures Settled() && DriverKept()
      ensures queue == CancelIf(old(queue), old(ui.holdDelayEvt))
      ensures ui == old(ui).(phase := None, currentTag := None, holdDelayEvt := None)
    {
      AgreeCancelHold(queue, ui.holdDelayEvt, driver, failsafeTimer);
      queue, ui := CancelIf(queue, ui.holdDelayEvt), ui.(phase := None, currentTag := None, holdDelayEvt := None);
    }

    /** A frame at host time `t`: the clock moves on and the fade is stepped. */
    method Update(t: real)
      requires Valid() && queue.now <= t
      modifies `queue, `ui
      ensures Valid() && queue.now == t
    {
      queue := AdvanceTo(queue, t);
      OnUIFadeUpdate();
    }

    /**
     * Step the fade.  Fading in, alpha follows the progress and the hold phase starts when
     * it reaches 1; fading out, alpha is one minus the progress and the session completes
     * when it reaches 1; holding, or with no session or no text, nothing changes.
     */
    method OnUIFadeUpdate()
      requires Valid()
      modifies `queue, `ui
      ensures Valid() && queue.now == old(queue.now)
      ensures old(ui.phase) !in {Some(In), Some(Out)} || !cfg.hasText ==> unchanged(this)
      ensures cfg.hasText && old(ui.phase) == Some(In) ==>
        var k := FadeProgress(old(queue.now - ui.phaseStartTime), old(ui.phaseDuration));
        && queue == old(queue)
        && (k < 1.0 ==> ui == old(ui).(alpha := k))
        && (k == 1.0 ==> ui == old(ui).(alpha := k, phase := Some(Hold), phaseStartTime := queue.now,
                                        phaseDuration := MinPhaseDuration))
      ensures cfg.hasText && old(ui.phase) == Some(Out) ==>
        var k := FadeProgress(old(queue.now - ui.phaseStartTime), old(ui.phaseDuration));
        && (k < 1.0 ==> ui == old(ui).(alpha := 1.0 - k) && queue == old(queue))
        && (k == 1.0 && FollowUp(old(ui.currentTag)).None? ==>
              ui == old(ui).(alpha := 0.0, phase := None, currentTag := None) && queue == old(queue))
        && (k == 1.0 && FollowUp(old(ui.currentTag)).Some? ==>
              (ui, queue) == Shown(cfg, old(ui).(alpha := 0.0, phase := None, currentTag := None), old(queue),
                                   FollowUp(old(ui.currentTag)).value))
    {
      if ui.phase.None? || !cfg.hasText {
        return;
      }
      var k := FadeProgress(queue.now - ui.phaseStartTime, ui.phaseDuration);
      match ui.phase.value {
        case In =>
          ui := ui.(alpha := k);
          if k >= 1.0 {
            StartUIPhase(Hold, MinPhaseDuration);
          }
        case Out =>
          ui := ui.(alpha := 1.0 - k);
          if k >= 1.0 {
            OnUIFadeComplete();
          }
        case Hold =>
      }
    }

    /** The fade-out is over: clear the phase and the tag, then run the old tag's continuation. */
    method OnUIFadeComplete()
      requires Valid()
      modifies `queue, `ui
      ensures Valid() && queue.now == old(queue.now)
      ensures FollowUp(old(ui.currentTag)).None? || !cfg.hasText ==>
        ui == old(ui).(phase := None, currentTag := None) && queue == old(queue)
      ensures FollowUp(old(ui.currentTag)).Some? ==>
        (ui, queue) == Shown(cfg, old(ui).(phase := None, currentTag := None), old(queue), FollowUp(old(ui.currentTag)).value)
    {
      var tag := ui.currentTag;
      ui := ui.(phase := None, currentTag := None);
      OnUIMessageComplete(tag);
    }

    /** The continuation of a finished message: show its follow-up, if it has one. */
    method OnUIMessageComplete(tag: Option<Tag>)
      requires Valid()
      modifies `queue, `ui
      ensures Valid() && queue.now == old(queue.now)
      ensures FollowUp(tag).None? || !cfg.hasText ==> unchanged(this)
      ensures FollowUp(tag).Some? ==> (ui, queue) == Shown(cfg, old(ui), old(queue), FollowUp(tag).value)
    {
      var next := FollowUp(tag);
      if next.Some? {
        ShowUI(next.value);
      }
    }
  }
}

=== FILE: winter_star_invariant.dfy ===
/**
 * What the Winter Star controller keeps true between callbacks, stated on plain values:
 * which pending events its handle fields (and its ghost driver handle) refer to, the
 * well-formedness of the message fade, and the order in which phases are entered.
 */
module WinterStarInvariant {
  import opened Wrappers
  import opened Scheduling
  import opened WinterStarSpec

  /** The three kinds of pending event the controller keeps a handle (or a ghost handle) on. */
  datatype Channel = HoldChannel | DriverChannel | FailsafeChannel

  predicate OnChannel(a: Action, c: Channel) {
    match c
    case HoldChannel => a == HoldElapsed
    case DriverChannel => IsDriver(a)
    case FailsafeChannel => a == Failsafe
  }

  /** The event `h` is pending and belongs to channel `c`. */
  ghost predicate Marks(pending: map<Handle, Timed<Action>>, c: Channel, h: Handle) {
    h in pending && OnChannel(pending[h].action, c)
  }

  /**
   * `slot` names the only pending event of channel `c`, if one is pending.  A slot may go
   * stale (name an event that has since fired), as the source's handle fields do; it is
   * never a handle that has not been issued yet.
   */
  ghost predicate Tracks(q: Queue<Action>, c: Channel, slot: Option<Handle>) {
    match slot
    case None => Idle(q, c)
    case Some(s) =>
      && s < q.next
      && (s in q.pending ==> Marks(q.pending, c, s))
      && forall h: Handle {:trigger Marks(q.pending, c, h)} :: Marks(q.pending, c, h) ==> h == s
  }

  /** No event of channel `c` is pending. */
  ghost predicate Idle(q: Queue<Action>, c: Channel) {
    forall h: Handle {:trigger Marks(q.pending, c, h)} :: !Marks(q.pending, c, h)
  }

  /** What `Tracks` says about one pending event. */
  lemma TracksAt(q: Queue<Action>, c: Channel, slot: Option<Handle>, h: Handle)
    requires Tracks(q, c, slot) && h in q.pending
    ensures OnChannel(q.pending[h].action, c) <==> slot == Some(h)
  {
    assert Marks(q.pending, c, h) ==> slot == Some(h);
  }

  /** Scheduling an event of another channel keeps the slot and keeps an idle channel idle. */
  lemma TracksSchedule(q: Queue<Action>, d: real, a: Action, c: Channel, slot: Option<Handle>)
    requires q.Valid() && Tracks(q, c, slot) && !OnChannel(a, c)
    ensures Tracks(Schedule(q, d, a), c, slot)
    ensures Idle(q, c) ==> Idle(Schedule(q, d, a), c)
  {
    var r := Schedule(q, d, a);
    forall h: Handle | Marks(r.pending, c, h)
      ensures Marks(q.pending, c, h)
    {
    }
  }

  /** Scheduling an event of an idle channel makes it the channel's slot. */
  lemma TracksScheduleOn(q: Queue<Action>, d: real, a: Action, c: Channel, slot: Option<Handle>)
    requires q.Valid() && OnChannel(a, c) && Idle(q, c)
    ensures Tracks(Schedule(q, d, a), c, Some(q.next))
  {
    var r := Schedule(q, d, a);
    forall h: Handle | h != q.next
      ensures !Marks(r.pending, c, h)
    {
      assert !Marks(q.pending, c, h);
    }
  }

  /** Removing an event keeps every slot; removing a channel's own event idles the channel. */
  lemma TracksCancel(q: Queue<Action>, h: Handle, c: Channel, slot: Option<Handle>)
    requires q.Valid() && Tracks(q, c, slot)
    ensures Tracks(Cancel(q, h), c, slot)
    ensures Idle(q, c) ==> Idle(Cancel(q, h), c)
    ensures slot == Some(h) ==> Tracks(Cancel(q, h), c, None) && Idle(Cancel(q, h), c)
  {
    var r := Cancel(q, h);
    forall g: Handle | Marks(r.pending, c, g)
      ensures Marks(q.pending, c, g) && g != h
    {
    }
  }

  /** The failsafe is one of the driving events, so no driver pending means no failsafe pending. */
  lemma IdleNoFailsafe(q: Queue<Action>)
    requires Idle(q, DriverChannel)
    ensures Idle(q, FailsafeChannel)
  {
    forall h: Handle
      ensures !Marks(q.pending, FailsafeChannel, h)
    {
      assert !Marks(q.pending, DriverChannel, h);
    }
  }

  /** A slot with nothing pending on its channel can be cleared. */
  lemma TracksClear(q: Queue<Action>, c: Channel, slot: Option<Handle>)
    requires Tracks(q, c, slot) && (slot.Some? ==> slot.value !in q.pending)
    ensures Tracks(q, c, None) && Idle(q, c)
  {
  }

  lemma {:induction false} TracksScheduleAll(q: Queue<Action>, es: seq<Delayed<Action>>, c: Channel, slot: Option<Handle>)
    requires q.Valid() && Tracks(q, c, slot)
    requires forall i | 0 <= i < |es| :: !OnChannel(es[i].action, c)
    ensures Tracks(ScheduleAll(q, es), c, slot)
    ensures Idle(q, c) ==> Idle(ScheduleAll(q, es), c)
    decreases |es|
  {
    if es != [] {
      var init := es[..|es| - 1];
      TracksScheduleAll(q, init, c, slot);
      TracksSchedule(ScheduleAll(q, init), es[|es| - 1].delay, es[|es| - 1].action, c, slot);
    }
  }

  /** The pending events agree with the hold-timer, driver and failsafe handles. */
  ghost predicate ChannelsAgree(q: Queue<Action>, hold: Option<Handle>, driver: Option<Handle>, failsafe: Option<Handle>) {
    match q
    case Queue(_, _, _) =>
    && q.Valid()
    && Tracks(q, HoldChannel, hold)
    && Tracks(q, DriverChannel, driver)
    && Tracks(q, FailsafeChannel, failsafe)
  }

  /** A slot after removing the event `h`: cleared if it named `h`, otherwise kept. */
  function Drop(slot: Option<Handle>, h: Handle): (r: Option<Handle>)
    ensures r == None || r == slot
    ensures r.Some? ==> r.value != h
  {
    if slot == Some(h) then None else slot
  }

  /** Scheduling an event that drives nothing and is not the hold-timer keeps every handle in agreement. */
  lemma AgreeSchedule(q: Queue<Action>, d: real, a: Action, hold: Option<Handle>, driver: Option<Handle>,
                      failsafe: Option<Handle>)
    requires ChannelsAgree(q, hold, driver, failsafe) && !IsDriver(a) && a != HoldElapsed
    ensures ChannelsAgree(Schedule(q, d, a), hold, driver, failsafe)
  {
    TracksSchedule(q, d, a, HoldChannel, hold);
    TracksSchedule(q, d, a, DriverChannel, driver);
    TracksSchedule(q, d, a, FailsafeChannel, failsafe);
  }

  /** Scheduling every request of a plan that holds neither driving events nor hold-timers keeps the handles in agreement. */
  lemma AgreeScheduleAll(q: Queue<Action>, es: seq<Delayed<Action>>, hold: Option<Handle>,
                         driver: Option<Handle>, failsafe: Option<Handle>)
    requires ChannelsAgree(q, hold, driver, failsafe)
    requires forall i | 0 <= i < |es| :: !IsDriver(es[i].action) && es[i].action != HoldElapsed
    ensures ChannelsAgree(ScheduleAll(q, es), hold, driver, failsafe)
  {
    TracksScheduleAll(q, es, HoldChannel, hold);
    TracksScheduleAll(q, es, DriverChannel, driver);
    TracksScheduleAll(q, es, FailsafeChannel, failsafe);
  }

  /** With nothing driving, a new driving event (other than the failsafe) becomes the driver. */
  lemma AgreeScheduleDriver(q: Queue<Action>, d: real, a: Action, hold: Option<Handle>, failsafe: Option<Handle>)
    requires ChannelsAgree(q, hold, None, failsafe) && IsDriver(a) && a != Failsafe
    ensures ChannelsAgree(Schedule(q, d, a), hold, Some(q.next), failsafe)
  {
    TracksClear(q, DriverChannel, None);
    TracksScheduleOn(q, d, a, DriverChannel, None);
    TracksSchedule(q, d, a, HoldChannel, hold);
    TracksSchedule(q, d, a, FailsafeChannel, failsafe);
  }

  /** With nothing driving, a new failsafe event becomes both the driver and the failsafe handle. */
  lemma AgreeScheduleFailsafe(q: Queue<Action>, d: real, hold: Option<Handle>, failsafe: Option<Handle>)
    requires ChannelsAgree(q, hold, None, failsafe)
    ensures ChannelsAgree(Schedule(q, d, Failsafe), hold, Some(q.next), Some(q.next))
  {
    TracksClear(q, DriverChannel, None);
    IdleNoFailsafe(q);
    TracksScheduleOn(q, d, Failsafe, DriverChannel, None);
    TracksScheduleOn(q, d, Failsafe, FailsafeChannel, failsafe);
    TracksSchedule(q, d, Failsafe, HoldChannel, hold);
  }

  /** With no hold-timer handle, a new hold-timer becomes the handle. */
  lemma AgreeScheduleHold(q: Queue<Action>, d: real, driver: Option<Handle>, failsafe: Option<Handle>)
    requires ChannelsAgree(q, None, driver, failsafe)
    ensures ChannelsAgree(Schedule(q, d, HoldElapsed), Some(q.next), driver, failsafe)
  {
    TracksClear(q, HoldChannel, None);
    TracksScheduleOn(q, d, HoldElapsed, HoldChannel, None);
    TracksSchedule(q, d, HoldElapsed, DriverChannel, driver);
    TracksSchedule(q, d, HoldElapsed, FailsafeChannel, failsafe);
  }

  /**
   * Removing the event `h` keeps the handles in agreement, whether each handle that named
   * `h` is cleared or left stale.
   */
  lemma AgreeCancel(q: Queue<Action>, h: Handle, hold: Option<Handle>, driver: Option<Handle>, failsafe: Option<Handle>,
                    hold': Option<Handle>, driver': Option<Handle>, failsafe': Option<Handle>)
    requires ChannelsAgree(q, hold, driver, failsafe)
    requires hold' == hold || hold' == Drop(hold, h)
    requires driver' == driver || driver' == Drop(driver, h)
    requires failsafe' == failsafe || failsafe' == Drop(failsafe, h)
    ensures ChannelsAgree(Cancel(q, h), hold', driver', failsafe')
  {
    TracksCancel(q, h, HoldChannel, hold);
    TracksCancel(q, h, DriverChannel, driver);
    TracksCancel(q, h, FailsafeChannel, failsafe);
  }

  /**
   * Dropping the hold-timer, if any, idles the hold channel and keeps the other handles in
   * agreement; the driving event is not the hold-timer, so it stays pending as it was.
   */
  lemma AgreeCancelHold(q: Queue<Action>, hold: Option<Handle>, driver: Option<Handle>, failsafe: Option<Handle>)
    requires ChannelsAgree(q, hold, driver, failsafe)
    ensures ChannelsAgree(CancelIf(q, hold), None, driver, failsafe)
    ensures driver.Some? && driver.value in q.pending ==>
      driver.value in CancelIf(q, hold).pending && CancelIf(q, hold).pending[driver.value] == q.pending[driver.value]
  {
    if hold.Some? {
      if hold.value in q.pending {
        TracksAt(q, HoldChannel, hold, hold.value);
        TracksAt(q, DriverChannel, driver, hold.value);
      }
      AgreeCancel(q, hold.value, hold, driver, failsafe, None, driver, failsafe);
    }
  }

  /** Entering WindBlowing schedules the wind's hiding, when there is a wind object, and then the explosion. */
  lemma WindStepSchedules(q: Queue<Action>, hasWind: bool, visibleFor: real)
    requires q.Valid()
    ensures ScheduleAll(q, WindStep(hasWind, visibleFor))
         == Schedule(if hasWind then Schedule(q, visibleFor, HideWind) else q, 1.0, Explode)
  {
    var first := if hasWind then [Delayed(visibleFor, HideWind)] else [];
    ScheduleAllSnoc(q, [], Delayed(visibleFor, HideWind));
    assert [] + [Delayed(visibleFor, HideWind)] == [Delayed(visibleFor, HideWind)];
    assert ScheduleAll(q, first) == if hasWind then Schedule(q, visibleFor, HideWind) else q;
    ScheduleAllSnoc(q, first, Delayed(1.0, Explode));
    assert first + [Delayed(1.0, Explode)] == WindStep(hasWind, visibleFor);
  }

  /** Entering Exploding schedules Collecting and nothing else. */
  lemma ExplodeStepSchedules(q: Queue<Action>, d: real)
    requires q.Valid()
    ensures ScheduleAll(q, ExplodeStep(d)) == Schedule(q, d, BeginCollecting)
  {
    ScheduleAllSnoc(q, [], Delayed(d, BeginCollecting));
    assert [] + [Delayed(d, BeginCollecting)] == ExplodeStep(d);
  }

  /** The fade in progress, if any, started in the past and lasts a positive time; alpha is in [0, 1]. */
  ghost predicate FadeWellFormed(now: real, ui: MessageChannel) {
    && 0.0 <= ui.alpha <= 1.0
    && (ui.phase.Some? ==> ui.phaseDuration >= MinPhaseDuration && ui.phaseStartTime <= now)
  }

  /**
   * `n` phases have been entered, along PhaseOrder, the current one last; and the count
   * tracks the fragments until Collecting.
   */
  ghost predicate PhasesWellFormed(n: nat, state: State, fragments: seq<Fragment>, collected: nat) {
    && n <= 6
    && (n == 0 ==> state == Descending)
    && (n != 0 ==> n == Rank(state) + 1)
    && collected <= |fragments|
    && (Rank(state) < Rank(Collecting) ==> collected == CollectedCount(fragments))
  }

  /** The driver handle refers to a pending event whose action is `a`. */
  ghost predicate DrivesWith(q: Queue<Action>, driver: Option<Handle>, a: Action) {
    driver.Some? && driver.value in q.pending && q.pending[driver.value].action == a
  }

  /**
   * Each phase has exactly its own driving event pending.  In Collecting that is the
   * failsafe, while the count tracks the collected fragments, or unification, once every
   * fragment is collected.  Before the start and after the end nothing drives.
   */
  ghost predicate PhaseDriven(n: nat, state: State, q: Queue<Action>, driver: Option<Handle>,
                              fragments: seq<Fragment>, collected: nat) {
    match state
    case Descending => if n == 0 then driver == None else DrivesWith(q, driver, DescentDone)
    case Collecting =>
      || (DrivesWith(q, driver, Failsafe) && collected == CollectedCount(fragments))
      || (DrivesWith(q, driver, Unify) && AllCollected(fragments))
    case Complete => driver == None
    case _ => DrivesWith(q, driver, Trigger(state).value)
  }
}

=== FILE: winter_star_spec.dfy ===
/**
 * The values and pure rules of the Winter Star narrative: its phases, the events that
 * drive it, the fragments and their collection gate, the on-screen messages and the
 * arithmetic of the text fade and of the randomized reveal delays.  The controller
 * class in module WinterStar changes its state step by step with these.
 */
module WinterStarSpec {
  import opened Wrappers
  import opened Geometry
  import opened Scheduling

  // ---------------------------------------------------------------- phases

  datatype State = Descending | WindBlowing | Exploding | Collecting | Unifying | Complete

  /** The one order in which the narrative enters its phases. */
  function PhaseOrder(): seq<State> {
    [Descending, WindBlowing, Exploding, Collecting, Unifying, Complete]
  }

  /** Where a phase stands in the narrative. */
  function Rank(s: State): nat {
    match s
    case Descending => 0
    case WindBlowing => 1
    case Exploding => 2
    case Collecting => 3
    case Unifying => 4
    case Complete => 5
  }

  /** A phase's rank is its position in PhaseOrder, and each position holds the phase of that rank. */
  lemma RankIsPosition(s: State, i: nat)
    ensures Rank(s) < |PhaseOrder()| && PhaseOrder()[Rank(s)] == s
    ensures i < |PhaseOrder()| ==> Rank(PhaseOrder()[i]) == i
  {
  }

  /** The phases entered after `n` transitions, in order. */
  function Entered(n: nat): (es: seq<State>)
    ensures |es| == if n <= |PhaseOrder()| then n else |PhaseOrder()|
  {
    if n <= |PhaseOrder()| then PhaseOrder()[..n] else PhaseOrder()
  }

  /** One more transition enters the next phase of PhaseOrder, after all those entered before. */
  lemma EnterNext(n: nat)
    requires n < |PhaseOrder()|
    ensures Entered(n + 1) == Entered(n) + [PhaseOrder()[n]]
  {
    assert PhaseOrder()[..n + 1] == PhaseOrder()[..n] + [PhaseOrder()[n]];
  }

  /** Entering phases along PhaseOrder never enters one twice. */
  lemma EnteredHasNoRepeats(n: nat)
    ensures forall i, j | 0 <= i < j < |Entered(n)| :: Entered(n)[i] != Entered(n)[j]
  {
    var es := Entered(n);
    forall i, j | 0 <= i < j < |es|
      ensures es[i] != es[j]
    {
      assert es[i] == PhaseOrder()[i] && es[j] == PhaseOrder()[j];
      RankIsPosition(es[i], i);
      RankIsPosition(es[j], j);
    }
  }

  // ---------------------------------------------------------------- events

  /** Which reveal list a randomized reveal event belongs to. */
  datatype Group = OrnamentGroup | LandscapeGroup

  /**
   * Everything the controller ever schedules.  DescentDone is the completion of the
   * descent tween; the others are delayed callbacks.
   */
  datatype Action =
    | DescentDone
    | HideWind
    | Explode
    | BeginCollecting
    | Failsafe
    | Unify
    | Finish
    | HoldElapsed
    | Reveal(group: Group, slot: nat)

  /** The events whose callbacks move the narrative from one phase to another. */
  predicate IsDriver(a: Action) {
    a.DescentDone? || a.Explode? || a.BeginCollecting? || a.Failsafe? || a.Unify? || a.Finish?
  }

  /** The event that ends each phase; Complete is terminal. */
  function Trigger(s: State): (a: Option<Action>)
    ensures a.Some? <==> s != Complete
    ensures a.Some? ==> IsDriver(a.value) && a.value != Failsafe
  {
    match s
    case Descending => Some(DescentDone)
    case WindBlowing => Some(Explode)
    case Exploding => Some(BeginCollecting)
    case Collecting => Some(Unify)
    case Unifying => Some(Finish)
    case Complete => None
  }

  // ---------------------------------------------------------------- configuration

  /**
   * The controller's inputs that the model uses.  hasText, hasWind and hasCamera say
   * whether instructionText, windAnimation and userCamera are assigned.
   */
  datatype Config = Config(
    descentDuration: real,
    windVisibleDuration: real,
    explosionDuration: real,
    collectDuration: real,
    failsafeTimeout: real,
    unificationRiseDuration: real,
    uiFadeInSeconds: real,
    uiHoldSeconds: real,
    uiFadeOutSeconds: real,
    ornamentStartDelay: real,
    ornamentDelayMin: real,
    ornamentDelayMax: real,
    landscapeStartDelay: real,
    landscapeDelayMin: real,
    landscapeDelayMax: real,
    hasText: bool,
    hasWind: bool,
    hasCamera: bool)

  /** The inputs' default values, with every optional reference assigned. */
  const DefaultConfig: Config := Config(
    5.0, 5.0, 1.0, 0.8, 120.0, 3.0,
    0.35, 2.0, 0.35,
    0.0, 0.0, 3.0,
    0.0, 0.0, 2.0,
    true, true, true)

  /** The start delay and the random range of one reveal list. */
  datatype RevealRange = RevealRange(start: real, min: real, max: real)

  function RangeOf(cfg: Config, g: Group): RevealRange {
    match g
    case OrnamentGroup => RevealRange(cfg.ornamentStartDelay, cfg.ornamentDelayMin, cfg.ornamentDelayMax)
    case LandscapeGroup => RevealRange(cfg.landscapeStartDelay, cfg.landscapeDelayMin, cfg.landscapeDelayMax)
  }

  // ---------------------------------------------------------------- fragments

  /**
   * One star fragment: whether it has been collected, and the enabled flag of its
   * Interactable, None when the fragment has no Interactable component.
   */
  datatype Fragment = Fragment(collected: bool, interactable: Option<bool>)

  /** Collecting a fragment marks it and disables its Interactable, if it has one. */
  function Collect(f: Fragment): (g: Fragment)
    ensures g.collected
    ensures g.interactable.Some? <==> f.interactable.Some?
    ensures g.interactable.Some? ==> !g.interactable.value
  {
    Fragment(true, if f.interactable.Some? then Some(false) else None)
  }

  function CollectedCount(s: seq<Fragment>): (n: nat)
    ensures n <= |s|
  {
    if s == [] then 0 else (if s[0].collected then 1 else 0) + CollectedCount(s[1..])
  }

  /** The fragments as set up: none collected, each with its Interactable's flag or None. */
  function SetUpFragments(interactables: seq<Option<bool>>): (s: seq<Fragment>)
    ensures |s| == |interactables|
    ensures forall i | 0 <= i < |s| :: !s[i].collected && s[i].interactable == interactables[i]
  {
    seq(|interactables|, i requires 0 <= i < |interactables| => Fragment(false, interactables[i]))
  }

  /** Nothing collected, nothing counted. */
  lemma {:induction false} CountNone(s: seq<Fragment>)
    requires forall i | 0 <= i < |s| :: !s[i].collected
    ensures CollectedCount(s) == 0
  {
    if s != [] {
      assert forall i | 0 <= i < |s| - 1 :: s[1..][i] == s[i + 1];
      CountNone(s[1..]);
    }
  }

  predicate AllCollected(s: seq<Fragment>) {
    forall i | 0 <= i < |s| :: s[i].collected
  }

  /** No fragment that was collected before is uncollected after. */
  predicate CollectedKept(before: seq<Fragment>, after: seq<Fragment>) {
    |before| == |after| && forall i | 0 <= i < |before| :: before[i].collected ==> after[i].collected
  }

  /** The count reaches the number of fragments exactly when every fragment is collected. */
  lemma {:induction false} CountFullIffAll(s: seq<Fragment>)
    ensures CollectedCount(s) == |s| <==> AllCollected(s)
  {
    if s != [] {
      CountFullIffAll(s[1..]);
      assert AllCollected(s) <==> s[0].collected && AllCollected(s[1..]) by {
        assert forall i | 1 <= i < |s| :: s[i] == s[1..][i - 1];
      }
    }
  }

  /** Collecting one uncollected fragment adds exactly one to the count. */
  lemma {:induction false} CountAfterCollect(s: seq<Fragment>, i: nat)
    requires i < |s| && !s[i].collected
    ensures CollectedCount(s[i := Collect(s[i])]) == CollectedCount(s) + 1
  {
    var t := s[i := Collect(s[i])];
    if i > 0 {
      assert t[1..] == s[1..][i - 1 := Collect(s[i])];
      CountAfterCollect(s[1..], i - 1);
    } else {
      assert t[1..] == s[1..];
    }
  }

  /** What the failsafe's loop does to one fragment: collect it unless it already is. */
  function ForceCollectOne(f: Fragment): (g: Fragment)
    ensures g.collected
    ensures f.collected ==> g == f
    ensures !f.collected ==> g == Collect(f)
  {
    if f.collected then f else Collect(f)
  }

  function ForceCollect(s: seq<Fragment>): (r: seq<Fragment>)
    ensures |r| == |s|
    ensures forall i | 0 <= i < |s| :: r[i] == ForceCollectOne(s[i])
  {
    seq(|s|, i requires 0 <= i < |s| => ForceCollectOne(s[i]))
  }

  /**
   * After the failsafe every fragment is collected, those collected before are exactly
   * as they were, and the collected count is the number of fragments.
   */
  lemma ForceCollectCompletes(s: seq<Fragment>)
    ensures AllCollected(ForceCollect(s))
    ensures CollectedKept(s, ForceCollect(s))
    ensures forall i | 0 <= i < |s| && s[i].collected :: ForceCollect(s)[i] == s[i]
    ensures CollectedCount(ForceCollect(s)) == |s|
  {
    CountFullIffAll(ForceCollect(s));
  }

  // ---------------------------------------------------------------- on-screen messages

  datatype Tag = Shattered | CollectIntro | Remaining | UnifyBright | Final | Pinch | OrnamentsHint

  /** The phases of one message: fading in, holding, fading out. */
  datatype UIPhase = In | Hold | Out

  /**
   * The message channel's fields: the text on screen and its alpha, the fade phase in
   * progress with its start time and duration, the current session's tag, and the handle
   * of its pending hold-timer.
   */
  datatype MessageChannel = MessageChannel(
    text: string, alpha: real,
    phase: Option<UIPhase>, phaseStartTime: real, phaseDuration: real,
    currentTag: Option<Tag>, holdDelayEvt: Option<Handle>)

  /** A message, its tag, and its hold time when the caller passes one. */
  datatype Message = Message(text: string, tag: Tag, hold: Option<real>)

  function ShatteredMessage(): Message {
    Message("Oh no—our WINTER STAR has\nSHATTERED & lost its light!", Shattered, None)
  }
  function CollectIntroMessage(): Message {
    Message("COLLECT the fragments to\nbring to back to life!", CollectIntro, None)
  }
  function UnifyMessage(): Message {
    Message("The Winter Star\nBURNS BRIGHT AGAIN!", UnifyBright, None)
  }
  function FinalMessage(): Message {
    Message("You are a STAR BEARER.\nMOVE your hands.", Final, Some(2.0))
  }
  function PinchMessage(): Message {
    Message("PINCH & POINT to\n COLLECT the fragments.", Pinch, Some(2.0))
  }
  function OrnamentsMessage(): Message {
    Message("PINCH & DRAG to\nmove the ornaments.", OrnamentsHint, Some(2.0))
  }

  /** How long a message holds: its own hold time, or the configured default. */
  function HoldFor(m: Message, cfg: Config): real {
    m.hold.GetOr(cfg.uiHoldSeconds)
  }

  /**
   * The message that follows a completed one: only the collect introduction (followed by
   * the pinch hint) and the final message (followed by the ornaments hint) chain.
   */
  function FollowUp(tag: Option<Tag>): (m: Option<Message>)
    ensures m.Some? <==> tag == Some(CollectIntro) || tag == Some(Final)
    ensures tag == Some(CollectIntro) ==> m == Some(PinchMessage())
    ensures tag == Some(Final) ==> m == Some(OrnamentsMessage())
  {
    match tag
    case Some(CollectIntro) => Some(PinchMessage())
    case Some(Final) => Some(OrnamentsMessage())
    case _ => None
  }

  /** A follow-up message never has a follow-up of its own, so chains stop after one step. */
  lemma FollowUpsDoNotChain(tag: Option<Tag>)
    ensures FollowUp(tag).Some? ==> FollowUp(Some(FollowUp(tag).value.tag)) == None
  {
  }

  /**
   * The message channel and the queue after `showUI(m)`.  Without a text component
   * nothing changes.  Otherwise the previous hold-timer is removed and nothing else
   * pending is touched; the text is shown at alpha 0 under the message's tag, fading in
   * from now; and a fresh hold-timer, which the channel now names, is due once the
   * fade-in and the message's hold have elapsed.
   */
  function Shown(cfg: Config, ui: MessageChannel, q: Queue<Action>, m: Message): (r: (MessageChannel, Queue<Action>))
    requires q.Valid()
    ensures r.1.Valid() && r.1.now == q.now
    ensures !cfg.hasText ==> r == (ui, q)
    ensures cfg.hasText ==>
      && r.0.text == m.text && r.0.alpha == 0.0 && r.0.currentTag == Some(m.tag)
      && r.0.phase == Some(In) && r.0.phaseStartTime == q.now && r.0.phaseDuration == ClampDuration(cfg.uiFadeInSeconds)
      && r.0.holdDelayEvt == Some(q.next) && r.1.next == q.next + 1
      && q.next in r.1.pending
      && r.1.pending[q.next] == Timed(q.now + (cfg.uiFadeInSeconds + HoldFor(m, cfg)), HoldElapsed)
    ensures cfg.hasText ==>
      forall h | h in q.pending && Some(h) != ui.holdDelayEvt :: h in r.1.pending && r.1.pending[h] == q.pending[h]
    ensures cfg.hasText ==>
      forall h | h in r.1.pending :: h == q.next || (h in q.pending && Some(h) != ui.holdDelayEvt)
  {
    if !cfg.hasText then (ui, q)
    else
      (MessageChannel(m.text, 0.0, Some(In), q.now, ClampDuration(cfg.uiFadeInSeconds), Some(m.tag), Some(q.next)),
       Schedule(CancelIf(q, ui.holdDelayEvt), cfg.uiFadeInSeconds + HoldFor(m, cfg), HoldElapsed))
  }

  /** The shortest phase the fade accepts. */
  const MinPhaseDuration: real := 0.0001

  /** The phase duration is never below MinPhaseDuration, so the fade never divides by zero. */
  function ClampDuration(d: real): (r: real)
    ensures r >= MinPhaseDuration && r >= d
    ensures r == d || r == MinPhaseDuration
  {
    if d > MinPhaseDuration then d else MinPhaseDuration
  }

  /**
   * How far a fade phase has got: the elapsed fraction of its duration, capped at 1.
   * It is 1 exactly when the whole duration has elapsed.
   */
  function FadeProgress(elapsed: real, duration: real): (k: real)
    requires duration > 0.0
    ensures k <= 1.0
    ensures elapsed >= 0.0 ==> k >= 0.0
    ensures k == 1.0 <==> elapsed >= duration
    ensures k < 1.0 ==> k * duration == elapsed
  {
    var t := elapsed / duration;
    assert t * duration == elapsed;
    if t < 1.0 then t else 1.0
  }

  // ---------------------------------------------------------------- the "remaining" message

  function DigitChar(d: nat): (c: char)
    requires d < 10
    ensures '0' <= c <= '9' && c as int - '0' as int == d
  {
    "0123456789"[d]
  }

  predicate IsDigits(s: string) {
    forall i | 0 <= i < |s| :: '0' <= s[i] <= '9'
  }

  /** A natural number in decimal, as a template literal prints it. */
  function NatToString(n: nat): (s: string)
    ensures |s| >= 1 && IsDigits(s)
    ensures n > 0 ==> s[0] != '0'
    decreases n
  {
    if n < 10 then [DigitChar(n)] else NatToString(n / 10) + [DigitChar(n % 10)]
  }

  /** The value of a string of decimal digits. */
  function DigitsValue(s: string): nat
    requires IsDigits(s)
  {
    if s == [] then 0 else DigitsValue(s[..|s| - 1]) * 10 + (s[|s| - 1] as int - '0' as int)
  }

  lemma {:induction false} NatToStringRoundTrip(n: nat)
    ensures DigitsValue(NatToString(n)) == n
    decreases n
  {
    if n >= 10 {
      var s := NatToString(n);
      assert s[..|s| - 1] == NatToString(n / 10);
      NatToStringRoundTrip(n / 10);
    }
  }

  /** The text shown after a fragment is collected while `remaining` are still to find. */
  function RemainingText(remaining: nat): string {
    NatToString(remaining) + RemainingTail(remaining)
  }

  /** What follows the count: the noun, plural when more than one remains, and the rest of the line. */
  function RemainingTail(remaining: nat): string {
    " fragment" + (if remaining > 1 then "s" else "") + " remaining ..."
  }

  function RemainingNotice(remaining: nat): Message {
    Message(RemainingText(remaining), Remaining, Some(1.2))
  }

  /** Cutting a concatenation where it was joined gives back its two parts. */
  lemma SplitAfter(a: string, b: string)
    ensures (a + b)[..|a|] == a && (a + b)[|a|..] == b
  {
  }

  /** The tail has the plural noun exactly when more than one fragment remains. */
  lemma TailIsPluralIffMany(remaining: nat)
    ensures RemainingTail(remaining) == " fragments remaining ..." <==> remaining > 1
    ensures RemainingTail(remaining) == " fragment remaining ..." <==> remaining <= 1
  {
    assert |" fragments remaining ..."| != |" fragment remaining ..."|;
  }

  /**
   * The remaining message starts with the count in decimal and uses the plural noun
   * exactly when more than one fragment remains.
   */
  lemma RemainingTextReadsBack(remaining: nat)
    ensures var d := NatToString(remaining);
      var t := RemainingText(remaining);
      && |d| < |t| && IsDigits(t[..|d|]) && DigitsValue(t[..|d|]) == remaining
      && (t[|d|..] == " fragments remaining ..." <==> remaining > 1)
      && (t[|d|..] == " fragment remaining ..." <==> remaining <= 1)
  {
    SplitAfter(NatToString(remaining), RemainingTail(remaining));
    NatToStringRoundTrip(remaining);
    TailIsPluralIffMany(remaining);
  }

  // ---------------------------------------------------------------- randomized reveals

  /** The reveal delay of one ornament or landscape element for the random draw `r`. */
  function RevealDelay(range: RevealRange, r: real): real {
    range.start + (range.min + r * (range.max - range.min))
  }

  /** With a draw in [0, 1) the delay lies between start + min and start + max. */
  lemma RevealDelayBounds(range: RevealRange, r: real)
    requires 0.0 <= r < 1.0 && range.min <= range.max
    ensures range.start + range.min <= RevealDelay(range, r) <= range.start + range.max
  {
    var w, a := range.max - range.min, 1.0 - r;
    assert 0.0 <= r * w;
    assert a * w == w - r * w;
    assert a * w >= 0.0;
  }

  /**
   * The reveal lists after set-up: an unassigned entry is None, an assigned one is
   * Some of its enabled flag, and set-up hides every assigned entry.
   */
  function Hidden(present: seq<bool>): (slots: seq<Option<bool>>)
    ensures |slots| == |present|
    ensures forall i | 0 <= i < |present| :: slots[i] == if present[i] then Some(false) else None
  {
    seq(|present|, i requires 0 <= i < |present| => if present[i] then Some(false) else None)
  }

  /** The number of assigned (non-null) entries of a list of optional scene objects. */
  function AssignedCount(slots: seq<Option<bool>>): (n: nat)
    ensures n <= |slots|
  {
    if slots == [] then 0
    else AssignedCount(slots[..|slots| - 1]) + (if slots[|slots| - 1].Some? then 1 else 0)
  }

  /**
   * The reveal events for one list: one per assigned entry, in list order, the k-th of
   * them using random draw `rand(k0 + k)`; unassigned entries draw nothing.
   */
  function RevealPlan(slots: seq<Option<bool>>, g: Group, range: RevealRange, rand: nat -> real, k0: nat)
    : (plan: seq<Delayed<Action>>)
    ensures |plan| == AssignedCount(slots)
    ensures forall i | 0 <= i < |plan| ::
      plan[i].action.Reveal? && plan[i].action.group == g
      && plan[i].action.slot < |slots| && slots[plan[i].action.slot].Some?
  {
    if slots == [] then []
    else
      var init := slots[..|slots| - 1];
      var here := if slots[|slots| - 1].Some?
        then [Delayed(RevealDelay(range, rand(k0 + AssignedCount(init))), Reveal(g, |slots| - 1))]
        else [];
      RevealPlan(init, g, range, rand, k0) + here
  }

  /** One more entry of the list: its reveal, with the next draw, if it is assigned, and nothing if not. */
  lemma RevealPlanStep(slots: seq<Option<bool>>, g: Group, range: RevealRange, rand: nat -> real, k0: nat, i: nat)
    requires i < |slots|
    ensures slots[i].Some? ==>
      && AssignedCount(slots[..i + 1]) == AssignedCount(slots[..i]) + 1
      && RevealPlan(slots[..i + 1], g, range, rand, k0)
         == RevealPlan(slots[..i], g, range, rand, k0)
            + [Delayed(RevealDelay(range, rand(k0 + AssignedCount(slots[..i]))), Reveal(g, i))]
    ensures slots[i].None? ==>
      && AssignedCount(slots[..i + 1]) == AssignedCount(slots[..i])
      && RevealPlan(slots[..i + 1], g, range, rand, k0) == RevealPlan(slots[..i], g, range, rand, k0)
  {
    assert slots[..i + 1][..i] == slots[..i];
    if slots[i].None? {
      assert RevealPlan(slots[..i], g, range, rand, k0) + [] == RevealPlan(slots[..i], g, range, rand, k0);
    }
  }

  /** Reveals of strictly increasing entries, the i-th waiting for the delay of draw `k0 + i`. */
  predicate InOrder(plan: seq<Delayed<Action>>, range: RevealRange, rand: nat -> real, k0: nat) {
    && (forall i | 0 <= i < |plan| :: plan[i].action.Reveal?)
    && (forall i, j | 0 <= i < j < |plan| && plan[i].action.Reveal? && plan[j].action.Reveal? ::
          plan[i].action.slot < plan[j].action.slot)
    && (forall i | 0 <= i < |plan| :: plan[i].delay == RevealDelay(range, rand(k0 + i)))
  }

  /**
   * The plan follows the list: its reveals name strictly increasing entries, so each
   * assigned entry gets exactly one, and the i-th reveal waits for the delay of the
   * (k0 + i)-th random draw.
   */
  lemma {:induction false} RevealPlanInOrder(slots: seq<Option<bool>>, g: Group, range: RevealRange, rand: nat -> real, k0: nat)
    ensures InOrder(RevealPlan(slots, g, range, rand, k0), range, rand, k0)
    decreases |slots|
  {
    if slots != [] {
      var init := slots[..|slots| - 1];
      RevealPlanInOrder(init, g, range, rand, k0);
      var plan, before := RevealPlan(slots, g, range, rand, k0), RevealPlan(init, g, range, rand, k0);
      var here := if slots[|slots| - 1].Some?
        then [Delayed(RevealDelay(range, rand(k0 + AssignedCount(init))), Reveal(g, |slots| - 1))]
        else [];
      assert plan == before + here;
      forall i | 0 <= i < |plan|
        ensures plan[i].delay == RevealDelay(range, rand(k0 + i))
        ensures i < |before| ==> plan[i] == before[i] && plan[i].action.slot < |init|
        ensures i >= |before| ==> plan[i].action.slot == |init|
      {
        if i >= |before| {
          assert plan[i] == here[0];
        } else {
          assert before[i].delay == RevealDelay(range, rand(k0 + i));
        }
      }
      forall i, j | 0 <= i < j < |plan|
        ensures plan[i].action.slot < plan[j].action.slot
      {
        if j < |before| {
          assert before[i].action.slot < before[j].action.slot;
        }
      }
    }
  }

  /** Each entry of the plan is scheduled with a delay from the reveal range when the draws are in [0, 1). */
  lemma {:induction false} RevealPlanWithinRange(
    slots: seq<Option<bool>>, g: Group, range: RevealRange, rand: nat -> real, k0: nat, i: nat)
    requires range.min <= range.max
    requires forall k :: 0.0 <= rand(k) < 1.0
    requires i < AssignedCount(slots)
    ensures range.start + range.min <= RevealPlan(slots, g, range, rand, k0)[i].delay <= range.start + range.max
    decreases |slots|
  {
    var init := slots[..|slots| - 1];
    if i < AssignedCount(init) {
      RevealPlanWithinRange(init, g, range, rand, k0, i);
    } else {
      RevealDelayBounds(range, rand(k0 + AssignedCount(init)));
    }
  }

  // ---------------------------------------------------------------- the wind and explosion steps

  /**
   * What entering WindBlowing schedules: the wind's auto-hide when the wind object is
   * assigned, then the explosion one second later in every case.
   */
  function WindStep(hasWind: bool, visibleFor: real): (es: seq<Delayed<Action>>)
    ensures |es| >= 1 && es[|es| - 1] == Delayed(1.0, Explode)
    ensures forall i | 0 <= i < |es| - 1 :: es[i] == Delayed(visibleFor, HideWind)
    ensures |es| == if hasWind then 2 else 1
  {
    (if hasWind then [Delayed(visibleFor, HideWind)] else []) + [Delayed(1.0, Explode)]
  }

  /**
   * The same step as the source writes it: the wind object is enabled once before the
   * null check, so with no wind object the callback throws before anything is scheduled.
   */
  function WindStepAsWritten(hasWind: bool, visibleFor: real): seq<Delayed<Action>> {
    if hasWind then WindStep(true, visibleFor) else []
  }

  /** As written, a missing wind object leaves no explosion scheduled: the narrative stops in WindBlowing. */
  lemma WindStepAsWrittenStalls(visibleFor: real)
    ensures forall i | 0 <= i < |WindStepAsWritten(false, visibleFor)| ::
      WindStepAsWritten(false, visibleFor)[i].action != Explode
    ensures WindStepAsWritten(true, visibleFor) == WindStep(true, visibleFor)
  {
  }

  /** The corrected step always schedules exactly one phase-driving event, the explosion. */
  lemma WindStepAlwaysExplodes(hasWind: bool, visibleFor: real)
    ensures var es := WindStep(hasWind, visibleFor);
      forall i | 0 <= i < |es| :: IsDriver(es[i].action) <==> i == |es| - 1
  {
  }

  /** What entering Exploding schedules: Collecting after the explosion's duration. */
  function ExplodeStep(explosionDuration: real): seq<Delayed<Action>> {
    [Delayed(explosionDuration, BeginCollecting)]
  }

  /**
   * The same step as the source writes it: the camera position is read without a null
   * check before the fragments' tweens, so with no camera nothing is scheduled.
   */
  function ExplodeStepAsWritten(hasCamera: bool, explosionDuration: real): seq<Delayed<Action>> {
    if hasCamera then ExplodeStep(explosionDuration) else []
  }

  /** As written, a missing camera leaves Collecting unscheduled; corrected, it is always scheduled. */
  lemma ExplodeStepAsWrittenStalls(explosionDuration: real)
    ensures forall i | 0 <= i < |ExplodeStepAsWritten(false, explosionDuration)| ::
      ExplodeStepAsWritten(false, explosionDuration)[i].action != BeginCollecting
    ensures ExplodeStep(explosionDuration) == [Delayed(explosionDuration, BeginCollecting)]
  {
  }

  // ---------------------------------------------------------------- cached scales

  /** A decoration whose original scale is cached: unassigned, or its scale and the cached copy. */
  datatype Aux = Unassigned | Assigned(scale: Vec3, orig: Option<Vec3>)

  /** Cache the current scale unless one is already cached. */
  function CacheScale(a: Aux): Aux {
    if a.Assigned? && a.orig.None? then Assigned(a.scale, Some(a.scale)) else a
  }

  /**
   * After caching, every assigned decoration has a cached scale; a scale cached before
   * is kept, and otherwise the current scale is cached.
   */
  function CacheScales(s: seq<Aux>): (r: seq<Aux>)
    ensures |r| == |s|
    ensures forall i | 0 <= i < |s| ::
      && (r[i].Assigned? <==> s[i].Assigned?)
      && (s[i].Assigned? ==> r[i].scale == s[i].scale && r[i].orig.Some?)
      && (s[i].Assigned? && s[i].orig.Some? ==> r[i].orig == s[i].orig)
      && (s[i].Assigned? && s[i].orig.None? ==> r[i].orig == Some(s[i].scale))
  {
    seq(|s|, i requires 0 <= i < |s| => CacheScale(s[i]))
  }

  /** Caching twice is caching once: the first cached value wins. */
  lemma CacheScalesIdempotent(s: seq<Aux>)
    ensures CacheScales(CacheScales(s)) == CacheScales(s)
  {
  }
}

=== FILE: wrappers.dfy ===
/** Optional values: the model's stand-in for the source's `T | null` and `T | undefined` fields. */
module Wrappers {
  datatype Option<+T> = None | Some(value: T) {
    function GetOr(default: T): T {
      match this
      case Some(v) => v
      case None => default
    }
  }
}
